=== FILE: README.md ===
# Music app screens — a Dafny model

This project models the client-side logic of a React Native music app: a
player, a track search, a library with playlists and followed artists, and
a few forms. The model covers the following:

- **Asset lookup.** `getAssetImage` and `getAssetAudio` map keys to
  bundled files. Missing keys fall back to a placeholder image or to no
  audio (modules `ImageManager` and `AudioManager`).
- **Player.** The player screen chooses a sound source: a streamed URL, a
  bundled file by key, or nothing. It also parses and formats `M:SS`
  durations, follows the load/playback state machine, and chooses the
  artwork (module `Player`).
- **Search.** The search screen builds the request URL for a query and maps
  each raw track into a `Song`, with fallbacks for image and play count. It
  also handles search and clear (module `Search`).
- **Add artist.** The add-artist screen filters artists case-insensitively
  by name, falls back to six built-in artists when the request fails, lets
  the user follow and unfollow, and shows a footer with a plural-aware
  count (module `AddArtist`).
- **Playlist detail.** The playlist page holds a twelve-song database. The
  playlist starts with the first three songs. The "add songs" sheet offers
  exactly the songs that are missing, and adding one moves it from the
  offer to the playlist (module `PlaylistDetail`).
- **Forms.** The payment form groups card numbers by four, formats the
  `MM/YY` expiry and the CVC, and checks in order when "pay" is pressed
  (module `Payment`). The sign-up check (module `Register`) and the
  new-playlist form (module `AddPlaylist`) are modelled too.

Shared JavaScript behaviour lives in module `Base`:

- truthiness of optional strings;
- `replace(/\D/g, "")`, `trim`, ASCII `toLowerCase`, `includes` and
  `split`;
- `String(n)` and `padStart(2, "0")`;
- `Number(...)` on digit strings;
- property lookup on object literals, including names inherited from
  `Object.prototype`.

The `Song` record is in module `Data`. Each asynchronous handler is split
into the part that runs before its `await` and the part that runs after
it. The awaited outcome (a response, a failure, or what the platform
reported) is a parameter.

## Model

| member | source | states |
|---|---|---|
| Base.DigitsOf | screens/PaymentScreen.tsx:32 | the result holds only digits, is no longer than the input, and leaves an all-digit string unchanged |
| Base.DigitsOfAppend | screens/PaymentScreen.tsx:32 | dropping non-digits distributes over concatenation |
| Base.TrimSpec | screens/AddPlaylistScreen.tsx:49 | `trim` gives a contiguous slice of the input that neither starts nor ends with white space, and everything cut off is white space |
| Base.TrimEmptyIff | screens/AddPlaylistScreen.tsx:49 | a string trims to "" exactly when it is all white space |
| Base.TrimNoWhitespace | screens/AddPlaylistScreen.tsx:58 | a string with no white space trims to itself |
| Base.Lower | screens/AddArtistScreen.tsx:56 | lower-casing keeps the length and maps each character through the ASCII lower-case map |
| Base.IncludesIff | screens/AddArtistScreen.tsx:56 | `includes` is true exactly when the needle occurs at some position of the haystack |
| Base.NatToString | screens/PlayerScreen.tsx:157 | the decimal text of a number is non-empty, all digits, and has no leading zero when longer than one digit |
| Base.DecimalValueOfNatToString | screens/PlayerScreen.tsx:157 | reading the decimal text of `n` back gives `n` |
| Base.Pad2 | screens/PlayerScreen.tsx:157 | `padStart(2, "0")` of a number below 100 has exactly two digits |
| Base.Pad2Value | screens/PlayerScreen.tsx:157 | the two padded digits read back as the number |
| Base.JsNumber | screens/PlayerScreen.tsx:80 | `Number(text)` is a whole number exactly when the trimmed text is all digits |
| Base.JsNumberOfNatToString | screens/SearchScreen.tsx:74 | `Number(String(n))` is `n` |
| Base.Split | screens/PlayerScreen.tsx:80 | `split` yields at least one part, no part contains the separator, and more than one part only when the separator occurs |
| Base.SplitAt | screens/PlayerScreen.tsx:80 | splitting at the first separator gives the text before it followed by the split of the rest |
| Base.JsGet | utils/ImageManager.ts:76 | reading a property of an object literal gives the own value for its own keys, an inherited member for the `Object.prototype` names, and `undefined` otherwise |
| ImageManager.GetAssetImage | utils/ImageManager.ts:75-77 | the image for a key is its table entry when present and the placeholder otherwise; the result is always the placeholder or a table image |
| ImageManager.PlaceholderIffMissing | utils/ImageManager.ts:9-77 | the placeholder comes back exactly for keys missing from the table, because the placeholder is no table entry |
| ImageManager.TableNotInjective | utils/ImageManager.ts:26-31 | two different keys (`artist_40`, `song_40`) name the same picture |
| ImageManager.GetAssetImageAsWritten | utils/ImageManager.ts:75-77 | the lookup as written returns the inherited member, not the placeholder, for `Object.prototype` names |
| ImageManager.AsWrittenInheritedKey | utils/ImageManager.ts:76 | for the key "toString" the lookup as written yields an inherited function instead of the placeholder |
| ImageManager.AsWrittenAgrees | utils/ImageManager.ts:75-77 | for every key that is not an `Object.prototype` name, the lookup as written and the corrected lookup agree |
| AudioManager.GetAssetAudio | utils/AudioManager.ts:14-17 | a missing or empty key gives no audio; otherwise the result is present exactly when the key is in the table, and it is one of the two bundled tracks |
| AudioManager.KnownKeys | utils/AudioManager.ts:5-7 | "flower" and "shape_of_you" give music1 and music2 |
| AudioManager.UnknownKeys | utils/AudioManager.ts:14-17 | any key outside the table gives no audio |
| AudioManager.GetAssetAudioAsWritten | utils/AudioManager.ts:14-17 | the lookup as written returns inherited members for `Object.prototype` names |
| AudioManager.AsWrittenInheritedKey | utils/AudioManager.ts:16 | for the key "constructor" the lookup as written yields a truthy non-audio value instead of no audio |
| AudioManager.AsWrittenAgrees | utils/AudioManager.ts:14-17 | outside the `Object.prototype` names, the lookup as written and the corrected lookup agree |
| Player.ChooseSource | screens/PlayerScreen.tsx:61-84 | a non-empty URL is streamed with `durationMillis` (or 0) as the hint; otherwise a non-empty audio key loads the bundled file; otherwise there is nothing to play |
| Player.UrlBeforeKey | screens/PlayerScreen.tsx:61-70 | when a song has both a URL and a key, the URL wins |
| Player.NoUrlNeverRemote | screens/PlayerScreen.tsx:66-84 | without a URL the source is never remote |
| Player.ParseDuration | screens/PlayerScreen.tsx:79-82 | a parsed duration is a whole number of seconds and needs a ':' in the text |
| Player.ParseDigitsColonDigits | screens/PlayerScreen.tsx:79-82 | two runs of digits around a colon, zero-padded or not, parse to `(a * 60 + b) * 1000` of their decimal values |
| Player.ParsePaddedDuration | screens/PlayerScreen.tsx:79-82 | a two-digit, colon, two-digit text parses to the minutes and seconds its digits spell, in milliseconds |
| Player.ShapeOfYouDuration | screens/PlaylistScreen.tsx:26-33 | the playlist song lasting "03:35" is shown in the player as 215 seconds |
| Player.FormatTime | screens/PlayerScreen.tsx:153-158 | the label is `M:SS`: all-digit minutes equal to `ms / 60000`, a colon, and two digits equal to the seconds within the minute, below 60 |
| Player.FormatTimeOfParts | screens/PlayerScreen.tsx:153-158 | `m` minutes and `s` seconds are shown as `m` followed by ":" and `s` padded to two digits |
| Player.ParseMinutesSeconds | screens/PlayerScreen.tsx:79-82 | "m:ss" parses to `(m * 60 + s) * 1000` |
| Player.ParseFormatTime | screens/PlayerScreen.tsx:79-82 | parsing a formatted label gives back the time rounded down to whole seconds |
| Player.DurationRoundTrip | screens/PlayerScreen.tsx:79-82 | a `M:SS` duration parses to milliseconds that format back to the same text |
| Player.DurationLabel | screens/PlayerScreen.tsx:230 | a `NaN` duration is labelled "NaN:NaN"; a numeric one is labelled as `formatTime` shows it |
| Player.DurationLabelOfText | screens/PlayerScreen.tsx:79-82 | a canonical `M:SS` duration text is labelled as itself; a text with no colon is labelled "NaN:NaN" |
| Player.StartLoad | screens/PlayerScreen.tsx:51-84 | with a source, loading starts; without one, loading stops, the sound, playing flag and position stay as they were, and a `duration` text sets the duration |
| Player.ChosenDuration | screens/PlayerScreen.tsx:107 | a positive hint wins; otherwise the platform's reported duration; otherwise 0 |
| Player.FinishLoad | screens/PlayerScreen.tsx:88-115 | loading ends either way; on success the sound is kept, plays, and the duration is chosen only for a loaded status; on failure only loading changes |
| Player.LoadAlwaysSettles | screens/PlayerScreen.tsx:51-116 | every load that reaches the `try` ends with loading off, whatever the platform does |
| Player.LocalTrackUsesReported | screens/PlayerScreen.tsx:66-108 | a bundled track has no hint, so its displayed duration is the one the platform reports, or 0 |
| Player.MockSongDuration | screens/PlayerScreen.tsx:72-83 | a song with no audio source but a "M:SS" duration shows that duration and stops loading |
| Player.OnPlaybackStatusUpdate | screens/PlayerScreen.tsx:128-138 | an unloaded status is ignored; otherwise the playing flag and position follow the status, and a finished track is replayed only through the sound the callback captured |
| Player.OnPlayPausePress | screens/PlayerScreen.tsx:141-150 | no sound means no command; otherwise pause when playing and play when paused, on the current sound |
| Player.PressReportPressAlternates | screens/PlayerScreen.tsx:128-150 | once the platform reports the opposite playing flag, the next press issues the opposite command on the same sound |
| Player.ArtworkSource | screens/PlayerScreen.tsx:164-175 | a string artwork is used as a URI; otherwise a present artwork key is read from the image table, with no placeholder fallback; otherwise the raw artwork |
| Player.ArtworkKeyAgreesWithLookup | screens/PlayerScreen.tsx:168-171 | on the table's keys the player shows the same image as `getAssetImage`; on a missing key it shows nothing where `getAssetImage` gives the placeholder |
| Player.ArtworkSourceAsWritten | screens/PlayerScreen.tsx:164-175 | as written, a key naming an `Object.prototype` member hands that member to the image, and every other song gets the modelled artwork |
| Player.ArtworkInheritedKey | screens/PlayerScreen.tsx:171 | the artwork key "toString" yields a function as written and no image in the model |
| Player.StartLoadAsWritten | screens/PlayerScreen.tsx:23 | as written, a song with an audio key and no URL fails before the `try` and leaves loading on; every other song starts as in the corrected model |
| Player.LocalKeyAsWritten | screens/PlayerScreen.tsx:66-70 | the bundled "flower" track never leaves the loading state as written, while the corrected start loads music1 |
| Search.FormatTime | screens/SearchScreen.tsx:37-43 | zero is shown as "0:00" |
| Search.FormatTimesAgree | screens/SearchScreen.tsx:37-43 | the search list and the player label show every duration the same way |
| Search.QueryOf | screens/SearchScreen.tsx:59 | a query extracted from a URL rebuilds that URL |
| Search.QueryVerbatim | screens/SearchScreen.tsx:59 | the query is inserted into the URL unchanged (not encoded) and can be read back |
| Search.MapTrack | screens/SearchScreen.tsx:65-75 | identity, title, artist and audio are copied; the duration is scaled to milliseconds; a missing or empty image becomes the placeholder URL; the play count is the decimal text of the share count (which `Number` reads back as the count), or "0" when it is absent |
| Search.MapTracks | screens/SearchScreen.tsx:65 | results map one-to-one, in order |
| Search.MappedTrackInPlayer | screens/SearchScreen.tsx:65-75 | a mapped track with audio streams its URL in the player with its length as the hint, and shows its image by URI |
| Search.SearchDurationWins | screens/PlayerScreen.tsx:61-108 | a search track with a positive length is shown with that length, whatever the platform reports |
| Search.StartSearch | screens/SearchScreen.tsx:46-59 | the old results are always cleared; a request is made exactly when the query is non-empty, which includes a query of spaces; an empty query hides the panel |
| Search.FinishSearch | screens/SearchScreen.tsx:77-82 | loading stops; a response replaces the results with its mapped tracks; a failure leaves the results alone |
| Search.SearchSettles | screens/SearchScreen.tsx:46-83 | a non-empty search ends with the panel shown, loading off, and either the mapped tracks or no results |
| Search.ClearSearch | screens/SearchScreen.tsx:85-90 | the query, panel and results are reset |
| Search.ClearThenSearch | screens/SearchScreen.tsx:46-51 | searching right after a clear makes no request |
| AddArtist.MockAvatarsPresent | screens/AddArtistScreen.tsx:75-113 | each of the six fallback artists has its own avatar image, none the placeholder |
| AddArtist.KeepMatching | screens/AddArtistScreen.tsx:55-57 | the filtered artists are, in order, exactly those whose lower-cased name contains the lower-cased query, each as often as it occurs in the list |
| AddArtist.FilterArtists | screens/AddArtistScreen.tsx:52-63 | a query that is blank after trimming shows every artist; otherwise exactly the matching ones, in list order and with their multiplicity |
| AddArtist.KeepMatchingLower | screens/AddArtistScreen.tsx:56 | the filter sees the query only through its lower-cased form |
| AddArtist.FilterIgnoresCase | screens/AddArtistScreen.tsx:52-63 | lower-casing the query first does not change the shown list |
| AddArtist.TypeQuery | screens/AddArtistScreen.tsx:52-63 | while loading nothing can be typed; otherwise the shown list becomes the filter of the loaded list for the new query |
| AddArtist.LoadedArtists | screens/AddArtistScreen.tsx:65-115 | the loaded list is the response body, or the six fallback artists when the request threw |
| AddArtist.FinishFetch | screens/AddArtistScreen.tsx:65-119 | both lists become the loaded list without looking at the query, and loading ends |
| AddArtist.FetchConsistentWhenBlank | screens/AddArtistScreen.tsx:65-71 | with a blank query the settled load shows exactly the filter's answer |
| AddArtist.Step | screens/AddArtistScreen.tsx:195-227 | while loading no event reaches the screen; typing refilters; a follow changes only the followed set, leaving the query and both lists as they were |
| AddArtist.LoadingIgnoresEvents | screens/AddArtistScreen.tsx:195-203 | nothing done before the request settles changes the screen, because only the spinner is rendered |
| AddArtist.RunKeepsConsistent | screens/AddArtistScreen.tsx:52-63 | after the load, every sequence of events keeps the shown list the filter of the loaded list |
| AddArtist.ReachableConsistent | screens/AddArtistScreen.tsx:45-71 | in every reachable state the shown list is the filter of the loaded list for the query in the box |
| AddArtist.PressFollow | screens/AddArtistScreen.tsx:121-147 | a followed artist is removed at once with no request; otherwise the artist is posted and the set waits |
| AddArtist.HandleFollow | screens/AddArtistScreen.tsx:121-161 | when no other press overlaps it, only the pressed artist's membership changes, and it ends up followed exactly when it was not followed and the POST answered ok |
| AddArtist.FollowThenUnfollow | screens/AddArtistScreen.tsx:121-151 | following and then unfollowing the same artist restores the set |
| AddArtist.FailedFollowKeepsSet | screens/AddArtistScreen.tsx:148-160 | a non-ok or failed POST leaves the set unchanged |
| AddArtist.SettleFollowAsWritten | screens/AddArtistScreen.tsx:148-155 | as written, an ok answer sets the set captured at the press plus the artist; any other answer leaves the current set |
| AddArtist.SettleFollow | screens/AddArtistScreen.tsx:148-155 | the corrected settle keeps the current set and adds at most the artist, exactly when the answer is ok |
| AddArtist.SettleAgreesAlone | screens/AddArtistScreen.tsx:121-161 | with no overlapping press, the written settle, the corrected settle and the whole handler agree |
| AddArtist.SettlesCommute | screens/AddArtistScreen.tsx:148-151 | corrected follows that settle in either order give the same set |
| AddArtist.OverlappingFollowsAsWritten | screens/AddArtistScreen.tsx:123-151 | two follows pressed before either answer lose the first as written, and keep both when corrected |
| AddArtist.UnfollowUndoneAsWritten | screens/AddArtistScreen.tsx:123-151 | an unfollow made while a follow is pending is undone as written, and kept when corrected |
| AddArtist.SummaryText | screens/AddArtistScreen.tsx:260-265 | the footer is shown exactly when some artist is followed; its number is the decimal text of the count; it ends in "s" exactly when the count is not one |
| PlaylistDetail.MockDatabaseUnique | screens/LibraryPlaylistDetailScreen.tsx:25-134 | the database has twelve songs with distinct ids |
| PlaylistDetail.DatabaseArtwork | screens/LibraryPlaylistDetailScreen.tsx:137-143 | the first song's image key is not in the table, so its row shows the placeholder; the other eleven keys resolve |
| PlaylistDetail.SongsToAdd | screens/LibraryPlaylistDetailScreen.tsx:203-211 | the offer is, in database order, exactly the database songs whose id is not in the playlist, each as often as in the database |
| PlaylistDetail.SongsToAddUnique | screens/LibraryPlaylistDetailScreen.tsx:208-210 | filtering a list with distinct ids keeps them distinct |
| PlaylistDetail.RemoveId | screens/LibraryPlaylistDetailScreen.tsx:227 | removing an id keeps the order and every other entry, and drops exactly that id |
| PlaylistDetail.RemoveIdCounts | screens/LibraryPlaylistDetailScreen.tsx:227 | every entry with another id is kept as often as it occurred, and every entry with the id is dropped |
| PlaylistDetail.RemoveIdAbsent | screens/LibraryPlaylistDetailScreen.tsx:227 | removing an absent id changes nothing |
| PlaylistDetail.RemoveIdUnique | screens/LibraryPlaylistDetailScreen.tsx:227 | with distinct ids, removing a present id drops exactly one entry |
| PlaylistDetail.FinishFetchPlaylist | screens/LibraryPlaylistDetailScreen.tsx:187-201 | the first load shows the first three database songs, with distinct ids, and stops loading |
| PlaylistDetail.OpenAddModal | screens/LibraryPlaylistDetailScreen.tsx:217-220 | the sheet opens offering the database songs the playlist lacks, in database order |
| PlaylistDetail.StartAdd | screens/LibraryPlaylistDetailScreen.tsx:224 | tapping a row sets the adding id, which disables that row (`disabled` at line 289) and no other |
| PlaylistDetail.FinishAdd | screens/LibraryPlaylistDetailScreen.tsx:226-231 | the song is appended, every entry with its id leaves the offer while the rest keep their order, the row is released, and the sheet closes |
| PlaylistDetail.OpenEstablishes | screens/LibraryPlaylistDetailScreen.tsx:203-220 | opening the sheet makes the offer exactly the complement of the playlist within the database |
| PlaylistDetail.AddKeepsPartition | screens/LibraryPlaylistDetailScreen.tsx:222-231 | adding an offered song keeps that complement relation and distinct ids; the playlist grows by one and the offer shrinks by one |
| PlaylistDetail.RepeatedTapAddsTwice | screens/LibraryPlaylistDetailScreen.tsx:222-231 | only the latest tapped row is disabled (line 289), so tapping A, B, A during the wait appends A twice and the ids repeat |
| PlaylistDetail.OfferAfterPrefix | screens/LibraryPlaylistDetailScreen.tsx:193-210 | with distinct ids, every song after the first `n` is offered when the first `n` are in the playlist |
| PlaylistDetail.FirstOffer | screens/LibraryPlaylistDetailScreen.tsx:187-220 | on first opening, the other nine songs are on offer |
| Payment.Group4Shape | screens/PaymentScreen.tsx:34 | grouping digits gives a space at every fifth position only, digits elsewhere, and the expected length |
| Payment.Group4Digits | screens/PaymentScreen.tsx:34 | removing the spaces of a grouping gives the digits back |
| Payment.PrefixGroup4 | screens/PaymentScreen.tsx:34-36 | cutting a grouping after `k` groups equals grouping the first `4k` digits |
| Payment.CardShapedSpacing | screens/PaymentScreen.tsx:34 | a grouped number has no leading, trailing or doubled spaces |
| Payment.FormatCardNumber | screens/PaymentScreen.tsx:30-37 | the field holds at most 19 grouped characters whose digits are the first 16 digits typed, in order |
| Payment.FormatCardNumberIdempotent | screens/PaymentScreen.tsx:30-37 | reformatting the field's own value changes nothing |
| Payment.FormatCardNumberFull | screens/PaymentScreen.tsx:30-37 | the field reaches 19 characters exactly when at least 16 digits were typed |
| Payment.FormatExpiry | screens/PaymentScreen.tsx:39-56 | with three or more digits the field is two digits, "/", and up to two more; otherwise it is the bare digits |
| Payment.FormatExpiryIgnoresPrevious | screens/PaymentScreen.tsx:49-55 | the branch for a deleted slash gives the same value as the plain branch, so the previous value never matters |
| Payment.FormatExpiryDigits | screens/PaymentScreen.tsx:39-56 | the expiry's digits are the first four digits typed |
| Payment.FormatExpiryIdempotent | screens/PaymentScreen.tsx:39-56 | reformatting the field's own value changes nothing |
| Payment.FormatExpiryFull | screens/PaymentScreen.tsx:39-56 | the field reaches five characters exactly when four or more digits were typed |
| Payment.FormatCvc | screens/PaymentScreen.tsx:58-61 | the CVC is the first `min(4, n)` digits typed |
| Payment.HandlePayment | screens/PaymentScreen.tsx:65-80 | each alert fires exactly under its own condition, in order (missing field, short card number, short expiry), and processing starts exactly when none applies |
| Payment.PaymentOfTypedInput | screens/PaymentScreen.tsx:30-80 | for fields filled through the formatters, payment proceeds exactly when a name, at least 16 card digits, at least 4 expiry digits and at least one CVC digit were typed |
| Register.HandleRegister | screens/RegisterScreen.tsx:27-50 | a password mismatch is reported first; then the sign-up succeeds exactly when name, email and password are all non-empty |
| Register.MismatchFirst | screens/RegisterScreen.tsx:29-32 | a mismatch is reported whatever the name and email hold |
| Register.WhitespaceCounts | screens/RegisterScreen.tsx:35 | fields holding only spaces are accepted |
| AddPlaylist.ApplyEdit | screens/AddPlaylistScreen.tsx:128-174 | typing replaces the title or description with the text up to its cap (50 or 200), a tap selects that emoji or colour, and nothing else in the form changes; selections stay within their lists |
| AddPlaylist.SelectionsStayValid | screens/AddPlaylistScreen.tsx:26-45 | starting from the first emoji and colour, every sequence of edits keeps both selections in their lists |
| AddPlaylist.SelectionsPreserved | screens/AddPlaylistScreen.tsx:154-174 | any sequence of edits preserves valid selections |
| AddPlaylist.NoPickKeepsEmoji | screens/AddPlaylistScreen.tsx:154-160 | edits that tap no emoji leave the selected emoji alone |
| AddPlaylist.LastPickWins | screens/AddPlaylistScreen.tsx:154-160 | after any sequence of edits, the selected emoji is the one tapped last |
| AddPlaylist.PostedEmojiIsLastPick | screens/AddPlaylistScreen.tsx:48-64 | the record posted for a non-blank title carries the emoji tapped last |
| AddPlaylist.BuildPlaylist | screens/AddPlaylistScreen.tsx:48-64 | a blank title is refused exactly when it is all white space; otherwise the record carries the trimmed title, the trimmed description or "My Playlist", zero songs, and the chosen emoji and colour |
| AddPlaylist.PressCreate | screens/AddPlaylistScreen.tsx:48-54 | a blank title leaves the form untouched and sends nothing; otherwise loading starts, the trimmed title is sent, and the sent record is the one `BuildPlaylist` gives |
| AddPlaylist.FinishCreate | screens/AddPlaylistScreen.tsx:75-90 | loading ends whatever happened, and the way back is offered exactly on an ok response |
| AddPlaylist.CreateRoundTrip | screens/AddPlaylistScreen.tsx:48-91 | a whole press sends a record exactly when the title is not blank and always returns the form to its state before the press |

## Left out

- Rendering, styles, navigation, `Alert` texts, `Keyboard.dismiss` and
  console logging are not modelled; alerts appear as outcome values.
- The network, timers (`setTimeout` delays), `Date.now()` and
  `toISOString()` are parameters: responses and failures are inputs, and
  `id` and `createdAt` of a new playlist are given.
- `Audio.setAudioModeAsync`, `createAsync`, `replayAsync`, `pauseAsync`,
  `playAsync` and `unloadAsync` are platform calls. The model returns the
  command or handle and takes the platform's result as input. The unload
  on leaving the screen is not modelled.
- The playback progress fraction is floating-point division and is not
  modelled.
- Base.NatToString: numbers are exact and unbounded. JavaScript numbers are
  doubles, so above 2^53 they lose precision, and `String(n)` switches to
  exponent notation from 1e21. Neither is modelled, which affects both
  `FormatTime`s, `Search.MapTrack`'s play count and `AddArtist.SummaryText`.
- Base.JsNumber: the result is exact and unbounded. A digit text above 2^53
  reads as the nearest double in JavaScript, and a very long one as
  `Infinity`; neither is modelled.
- Base.JsNumber: `Number(...)` is modelled only for texts that trim to
  decimal digits (with "" read as 0). Anything else, including signs,
  decimals, exponents and hex, gives nothing. This is weaker than
  JavaScript's full number grammar.
- Player.ParseDuration: it inherits the `Number(...)` limit above, so a
  part with a sign or a decimal point gives `NotANumber`.
- Base.Lower: only ASCII letters are lower-cased, so the artist filter
  ignores Unicode case folding.
- Search.MapTrack: `duration` and `sharecount` are whole numbers. A
  fractional or missing duration from the service is not modelled.
- Search.FormatTime: it takes a whole number of milliseconds, so the
  `NaN` and `undefined` cases of `!millis` are not modelled.
- Player.ArtworkSource: it reads own table entries only. The written read
  of inherited `Object.prototype` names is `Player.ArtworkSourceAsWritten`.
- Player.OnPlaybackStatusUpdate: the callback captures the `sound` value
  of the render that registered it. The model takes that value as a
  parameter, `captured`, and does not claim which render that is.
- AddPlaylist.ApplyEdit: the `maxLength` caps are modelled as truncation
  of the typed text. The emoji and colour taps are indices into the two
  lists.
- Payment.FormatCardNumber: the `maxLength` of the three payment inputs
  is not modelled. The formatters are applied to whatever text arrives.
- Payment.HandlePayment: the two-second simulated payment and its
  navigation after `loading` is set are not modelled.
- PlaylistDetail.OpenAddModal: the 300 ms delay before the offer is
  computed is collapsed. The offer is computed from the playlist at the
  moment of opening.
- PlaylistDetail.FinishAdd: the catch branch of `handleAddSong` is not
  modelled. Only the alert could throw inside the `try`, and alerts are
  outside the model.
- AddArtist.HandleFollow: it describes a handler that settles before the
  next press. Overlapping presses are modelled separately by
  `SettleFollowAsWritten`, and the lost update is under Findings.
- PlaylistDetail.AddKeepsPartition: it holds for an add that settles
  before the next tap. Overlapping taps can append a song twice, which
  `RepeatedTapAddsTwice` exhibits; the model does not track several pending
  adds at once.
- The remaining screens (home, feed, profile, settings, login, welcome,
  subscription plans, library list, artist, playlist) and the debounce
  hook are not part of this model.

## Findings

| source | as written | input that shows it | evidently intended | confidence | as-written member | corrected member |
|---|---|---|---|---|---|---|
| screens/PlayerScreen.tsx:23 | imports `AppAudio`, which utils/AudioManager.ts never exports, so the key branch reads a property of `undefined` before the `try` | a song with `audioKey: "flower"` and no `audioUrl` | load the bundled file through `getAssetAudio(key)` and stop loading when done | not executed; high | Player.StartLoadAsWritten, Player.LocalKeyAsWritten | Player.StartLoad, Player.ChooseSource, Player.LoadAlwaysSettles |
| utils/ImageManager.ts:76, utils/AudioManager.ts:16, screens/PlayerScreen.tsx:171 | the table read before the fallback also finds names inherited from `Object.prototype` | key "toString" for an image, "constructor" for audio | unknown keys give the placeholder image or no audio | not executed; medium | ImageManager.GetAssetImageAsWritten, ImageManager.AsWrittenInheritedKey, AudioManager.GetAssetAudioAsWritten, AudioManager.AsWrittenInheritedKey, Player.ArtworkSourceAsWritten, Player.ArtworkInheritedKey | ImageManager.GetAssetImage, ImageManager.PlaceholderIffMissing, AudioManager.GetAssetAudio, Player.ArtworkSource |
| screens/AddArtistScreen.tsx:123-151 | an ok answer sets the followed set captured when the button was pressed, plus the artist | press follow on A and then on B before A's POST answers; both answer ok | add the artist to the set as it is when the answer arrives | not executed; medium | AddArtist.SettleFollowAsWritten, AddArtist.OverlappingFollowsAsWritten, AddArtist.UnfollowUndoneAsWritten | AddArtist.SettleFollow, AddArtist.SettlesCommute, AddArtist.SettleAgreesAlone |

=== FILE: add_artist.dfy ===
/** The "Add Artist" screen of screens/AddArtistScreen.tsx: loading the
    artist list (with a built-in fallback), filtering it by name, following
    and unfollowing, and the "You followed N artists" summary. */
module AddArtist {
  import opened Base
  import ImageManager

  datatype ArtistItem = ArtistItem(id: string, name: string, followers: string, avatarKey: string, verified: Option<bool>)

  /** The list shown when the artist request fails. */
  const MockArtists: seq<ArtistItem> := [
    ArtistItem("artist_1", "Jennifer Wilson", "65.1K", "artist_39", Some(true)),
    ArtistItem("artist_2", "Elizabeth Hall", "12.3K", "artist_40", None),
    ArtistItem("artist_3", "Mer Watson", "1.234K", "search_artist_101", None),
    ArtistItem("artist_4", "Jessica Gonzalez", "2.1M", "album_45", None),
    ArtistItem("artist_5", "Anthony Taylor", "68M", "album_46", None),
    ArtistItem("artist_6", "Brian Bailey", "93M", "song_47", None)
  ]

  /** Every fallback artist has its own avatar in the image table, so none of
      them is drawn with the placeholder. */
  lemma MockAvatarsPresent()
    ensures |MockArtists| == 6
    ensures forall a :: a in MockArtists ==> a.avatarKey in ImageManager.AppImages
    ensures forall a :: a in MockArtists ==> ImageManager.GetAssetImage(a.avatarKey) != ImageManager.Placeholder
  {
    ImageManager.PlaceholderNotInTable();
  }

  // ---------------------------------------------------------------- filter

  /** The name test of the filter: the lower-cased name contains the
      lower-cased query (which is not trimmed). */
  predicate Matches(a: ArtistItem, query: string) {
    Includes(Lower(a.name), Lower(query))
  }

  /** `allArtists.filter(...)`: the artists whose name matches, in list order. */
  function KeepMatching(all: seq<ArtistItem>, query: string): (r: seq<ArtistItem>)
    ensures Subsequence(r, all)
    ensures forall a :: a in r <==> a in all && Matches(a, query)
    ensures forall a :: multiset(r)[a] == if Matches(a, query) then multiset(all)[a] else 0
    ensures (forall k :: 0 <= k < |all| ==> !Matches(all[k], query)) ==> r == []
    decreases |all|
  {
    if all == [] then []
    else
      var rest := KeepMatching(all[1..], query);
      assert forall a :: a in all <==> a == all[0] || a in all[1..];
      assert all == [all[0]] + all[1..];
      assert multiset(all) == multiset{all[0]} + multiset(all[1..]);
      if Matches(all[0], query) then
        assert ([all[0]] + rest)[1..] == rest;
        [all[0]] + rest
      else rest
  }

  /** The list the filter effect shows for a query: everything when the query
      is blank after trimming, otherwise the matching artists in order. */
  function FilterArtists(all: seq<ArtistItem>, query: string): (r: seq<ArtistItem>)
    ensures AllWhitespace(query) ==> r == all
    ensures !AllWhitespace(query) ==> forall a :: a in r <==> a in all && Matches(a, query)
    ensures !AllWhitespace(query) ==> forall a :: multiset(r)[a] == if Matches(a, query) then multiset(all)[a] else 0
    ensures Subsequence(r, all)
  {
    TrimEmptyIff(query);
    SubsequenceRefl(all);
    if Trim(query) != "" then KeepMatching(all, query) else all
  }

  /** Lower-casing is idempotent and keeps white space where it was. */
  lemma LowerIdempotent(s: string)
    ensures Lower(Lower(s)) == Lower(s)
    ensures AllWhitespace(Lower(s)) <==> AllWhitespace(s)
  {
    forall i | 0 <= i < |s| ensures IsJsWhitespace(Lower(s)[i]) <==> IsJsWhitespace(s[i]) {
      assert Lower(s)[i] == LowerChar(s[i]);
    }
  }

  /** The matching list depends on the query only through its lower-cased form. */
  lemma {:induction false} KeepMatchingLower(all: seq<ArtistItem>, query: string)
    ensures KeepMatching(all, Lower(query)) == KeepMatching(all, query)
    decreases |all|
  {
    LowerIdempotent(query);
    if all != [] {
      KeepMatchingLower(all[1..], query);
    }
  }

  /** The filter ignores the case of the query's ASCII letters. */
  lemma FilterIgnoresCase(all: seq<ArtistItem>, query: string)
    ensures FilterArtists(all, Lower(query)) == FilterArtists(all, query)
  {
    LowerIdempotent(query);
    TrimEmptyIff(query);
    TrimEmptyIff(Lower(query));
    if !AllWhitespace(query) {
      KeepMatchingLower(all, query);
    }
  }

  // ---------------------------------------------------------------- screen

  datatype ArtistScreen = ArtistScreen(
    query: string,
    all: seq<ArtistItem>,
    filtered: seq<ArtistItem>,
    followed: set<string>,
    loading: bool
  )

  /** The screen when it mounts, before the artist request settles. */
  const Opened: ArtistScreen := ArtistScreen("", [], [], {}, true)

  /** The shown list is the filter of the loaded list for the current query. */
  predicate ListConsistent(st: ArtistScreen) {
    st.filtered == FilterArtists(st.all, st.query)
  }

  /** Typing into the search box: the filter effect recomputes the list.
      While loading the screen renders only the spinner, so the box is not
      there and nothing can be typed. */
  function TypeQuery(st: ArtistScreen, query: string): (r: ArtistScreen)
    ensures st.loading ==> r == st
    ensures !st.loading ==> ListConsistent(r) && r.query == query
    ensures r.all == st.all && r.followed == st.followed && r.loading == st.loading
  {
    if st.loading then st else st.(query := query, filtered := FilterArtists(st.all, query))
  }

  /** The loaded list: the response body, or the fallback when the request
      threw. */
  function LoadedArtists(response: Option<seq<ArtistItem>>): (r: seq<ArtistItem>)
    ensures response.Some? ==> r == response.value
    ensures response.None? ==> r == MockArtists
  {
    if response.Some? then response.value else MockArtists
  }

  /** `fetchAllArtists` as it settles: both lists become the loaded list,
      without looking at the query, and loading ends. */
  function FinishFetch(st: ArtistScreen, response: Option<seq<ArtistItem>>): (r: ArtistScreen)
    ensures r.all == LoadedArtists(response) && r.filtered == r.all
    ensures !r.loading && r.query == st.query && r.followed == st.followed
  {
    var loaded := LoadedArtists(response);
    st.(all := loaded, filtered := loaded, loading := false)
  }

  /** The load keeps the shown list consistent only because the query is
      still blank when it settles: with a blank query the whole list is
      exactly the filter's answer. */
  lemma FetchConsistentWhenBlank(st: ArtistScreen, response: Option<seq<ArtistItem>>)
    requires AllWhitespace(st.query)
    ensures ListConsistent(FinishFetch(st, response))
  {
  }

  // ----------------------------------------------------------------- events

  /** What the user can do on the screen: type a query (the clear button types
      ""), or press an artist's follow button and see the handler settle. */
  datatype ArtistEvent = Type(query: string) | Follow(artist: ArtistItem, outcome: PostOutcome)

  /** One event. While loading only the spinner is rendered, so no event
      reaches the screen; a follow replaces the followed set as
      `HandleFollow` does. */
  function Step(st: ArtistScreen, e: ArtistEvent): (r: ArtistScreen)
    ensures st.loading ==> r == st
    ensures r.all == st.all && r.loading == st.loading
    ensures !st.loading && (ListConsistent(st) || e.Type?) ==> ListConsistent(r)
    ensures !st.loading && e.Follow? ==> r.followed == HandleFollow(st.followed, e.artist, e.outcome)
    ensures e.Follow? ==> r.query == st.query && r.filtered == st.filtered
  {
    if st.loading then st
    else
      match e
      case Type(q) => TypeQuery(st, q)
      case Follow(a, outcome) => st.(followed := HandleFollow(st.followed, a, outcome))
  }

  /** The events in order. */
  function Run(st: ArtistScreen, events: seq<ArtistEvent>): ArtistScreen
    decreases |events|
  {
    if events == [] then st else Run(Step(st, events[0]), events[1..])
  }

  /** Nothing the user does before the request settles changes the screen. */
  lemma {:induction false} LoadingIgnoresEvents(events: seq<ArtistEvent>)
    ensures Run(Opened, events) == Opened
    decreases |events|
  {
    if events != [] {
      LoadingIgnoresEvents(events[1..]);
    }
  }

  /** After the load, every event keeps the shown list the filter of the
      loaded list for the current query. */
  lemma {:induction false} RunKeepsConsistent(st: ArtistScreen, events: seq<ArtistEvent>)
    requires ListConsistent(st) && !st.loading
    ensures ListConsistent(Run(st, events)) && !Run(st, events).loading
    decreases |events|
  {
    if events != [] {
      RunKeepsConsistent(Step(st, events[0]), events[1..]);
    }
  }

  /** Whatever the user does before and after the artist request settles,
      and whatever it returns, the shown list is the filter of the loaded
      list for the query in the box. */
  lemma ReachableConsistent(before: seq<ArtistEvent>, response: Option<seq<ArtistItem>>, after: seq<ArtistEvent>)
    ensures ListConsistent(Run(FinishFetch(Run(Opened, before), response), after))
  {
    LoadingIgnoresEvents(before);
    FetchConsistentWhenBlank(Opened, response);
    RunKeepsConsistent(FinishFetch(Opened, response), after);
  }

  // ----------------------------------------------------------------- follow

  /** The synchronous part of `handleFollowArtist`: a followed artist is
      unfollowed at once, with no request; otherwise the artist is posted. */
  function PressFollow(followed: set<string>, artist: ArtistItem): (r: (set<string>, Option<ArtistItem>))
    ensures r.1.Some? <==> artist.id !in followed
    ensures r.1.Some? ==> r.1.value == artist && r.0 == followed
    ensures r.1.None? ==> r.0 == followed - {artist.id}
  {
    if artist.id in followed then (followed - {artist.id}, None) else (followed, Some(artist))
  }

  /** The whole handler when no other press overlaps it: only the pressed
      artist's membership can change, an unfollow always succeeds, and a
      follow counts only when the POST answered ok. */
  function HandleFollow(followed: set<string>, artist: ArtistItem, outcome: PostOutcome): (r: set<string>)
    ensures artist.id in r <==> artist.id !in followed && outcome == PostOk
    ensures forall x :: x != artist.id ==> (x in r <==> x in followed)
  {
    var (s, request) := PressFollow(followed, artist);
    if request.Some? && outcome == PostOk then s + {artist.id} else s
  }

  /** Following and then unfollowing the same artist restores the set. */
  lemma FollowThenUnfollow(followed: set<string>, artist: ArtistItem, second: PostOutcome)
    requires artist.id !in followed
    ensures HandleFollow(HandleFollow(followed, artist, PostOk), artist, second) == followed
  {
  }

  /** A failed follow changes nothing. */
  lemma FailedFollowKeepsSet(followed: set<string>, artist: ArtistItem, outcome: PostOutcome)
    requires artist.id !in followed && outcome != PostOk
    ensures HandleFollow(followed, artist, outcome) == followed
  {
  }

  /** How a follow settles as written: the new set is the set the handler
      captured when it was pressed, plus the artist; a non-ok answer leaves
      the current set alone. */
  function SettleFollowAsWritten(current: set<string>, captured: set<string>, artist: ArtistItem, outcome: PostOutcome): (r: set<string>)
    ensures outcome == PostOk ==> r == captured + {artist.id}
    ensures outcome != PostOk ==> r == current
  {
    if outcome == PostOk then captured + {artist.id} else current
  }

  /** How a follow should settle: the artist is added to the set as it is
      when the answer arrives, and nothing else changes. */
  function SettleFollow(current: set<string>, artist: ArtistItem, outcome: PostOutcome): (r: set<string>)
    ensures current <= r
    ensures forall x :: x in r && x !in current ==> x == artist.id
    ensures artist.id in r <==> artist.id in current || outcome == PostOk
  {
    if outcome == PostOk then current + {artist.id} else current
  }

  /** With no other press in between, the written settle, the corrected one
      and the whole handler agree. */
  lemma SettleAgreesAlone(followed: set<string>, artist: ArtistItem, outcome: PostOutcome)
    requires artist.id !in followed
    ensures SettleFollowAsWritten(followed, followed, artist, outcome) == SettleFollow(followed, artist, outcome)
    ensures SettleFollow(followed, artist, outcome) == HandleFollow(followed, artist, outcome)
  {
  }

  /** Corrected follows that settle in either order give the same set. */
  lemma SettlesCommute(current: set<string>, a: ArtistItem, oa: PostOutcome, b: ArtistItem, ob: PostOutcome)
    ensures SettleFollow(SettleFollow(current, a, oa), b, ob) == SettleFollow(SettleFollow(current, b, ob), a, oa)
  {
  }

  /** The discrepancy: two follows pressed before either answer arrives both
      capture the same set, so as written the second to settle drops the
      first; settled against the current set, both artists are followed. */
  lemma OverlappingFollowsAsWritten(followed: set<string>, a: ArtistItem, b: ArtistItem)
    requires a.id != b.id && a.id !in followed && b.id !in followed
    ensures PressFollow(followed, a).0 == followed && PressFollow(followed, b).0 == followed
    ensures var afterA := SettleFollowAsWritten(followed, followed, a, PostOk);
      var afterB := SettleFollowAsWritten(afterA, followed, b, PostOk);
      a.id !in afterB && b.id in afterB
    ensures var fixed := SettleFollow(SettleFollow(followed, a, PostOk), b, PostOk);
      a.id in fixed && b.id in fixed
  {
  }

  /** The discrepancy with an unfollow: an artist unfollowed while a follow
      is pending comes back as written when the follow settles. */
  lemma UnfollowUndoneAsWritten(followed: set<string>, a: ArtistItem, c: ArtistItem)
    requires a.id !in followed && c.id in followed && a.id != c.id
    ensures var afterC := PressFollow(followed, c).0;
      && c.id !in afterC
      && c.id in SettleFollowAsWritten(afterC, followed, a, PostOk)
      && c.id !in SettleFollow(afterC, a, PostOk)
  {
  }

  // ---------------------------------------------------------------- summary

  const SummaryLead: string := "You followed "

  function ArtistWord(n: nat): string {
    if n != 1 then " artists" else " artist"
  }

  /** The footer: shown only when some artist is followed; it names the count
      in decimal and uses the plural unless the count is one. */
  function SummaryText(n: nat): (r: Option<string>)
    ensures r.Some? <==> n > 0
    ensures r.Some? ==> var t := r.value;
      && |t| > |SummaryLead| + |ArtistWord(n)|
      && t[..|SummaryLead|] == SummaryLead
      && t[|t| - |ArtistWord(n)|..] == ArtistWord(n)
      && t[|SummaryLead|..|t| - |ArtistWord(n)|] == NatToString(n)
      && JsNumber(t[|SummaryLead|..|t| - |ArtistWord(n)|]) == Some(n)
      && (t[|t| - 1] == 's' <==> n != 1)
  {
    if n == 0 then None
    else
      var digits := NatToString(n);
      var t := SummaryLead + digits + ArtistWord(n);
      assert t[|SummaryLead|..|t| - |ArtistWord(n)|] == digits;
      assert t[|t| - |ArtistWord(n)|..] == ArtistWord(n);
      JsNumberOfNatToString(n);
      Some(t)
  }
}

=== FILE: add_playlist.dfy ===
/** The "New Playlist" form of screens/AddPlaylistScreen.tsx: title and
    description inputs, the emoji and colour pickers, and `handleAddPlaylist`,
    which checks the title and builds the record it posts. */
module AddPlaylist {
  import opened Base

  /** The ten icons offered. */
  const Emojis: seq<string> := [
    "\U{1F3B8}", "\U{1F3B5}", "\U{1F3A4}", "\U{1F3B9}", "\U{1F3BC}",
    "\U{1F3A7}", "\U{1F3BA}", "\U{1F941}", "\U{1F3BB}", "\U{1F4FB}"
  ]

  /** The ten background colours offered. */
  const Colors: seq<string> := [
    "#FF6B6B", "#4ECDC4", "#45B7D1", "#96CEB4", "#FFEAA7",
    "#DDA15E", "#BC6C25", "#7209B7", "#3A0CA3", "#FF006E"
  ]

  const TitleMaxLength: nat := 50
  const DescriptionMaxLength: nat := 200

  datatype PlaylistForm = PlaylistForm(
    title: string,
    description: string,
    selectedEmoji: string,
    selectedColor: string,
    loading: bool
  )

  /** The screen's state when it opens. */
  const InitialForm: PlaylistForm := PlaylistForm("", "", Emojis[0], Colors[0], false)

  /** What the user can do to the form before submitting it: type into either
      input (each capped by its `maxLength`) or tap one of the pickers. */
  datatype FormEdit = TypeTitle(text: string) | TypeDescription(text: string) | PickEmoji(index: nat) | PickColor(index: nat)

  /** A tap lands on one of the ten buttons. */
  predicate EditPossible(e: FormEdit) {
    match e
    case PickEmoji(i) => i < |Emojis|
    case PickColor(i) => i < |Colors|
    case _ => true
  }

  predicate SelectionsValid(f: PlaylistForm) {
    f.selectedEmoji in Emojis && f.selectedColor in Colors
  }

  /** One edit: typing replaces that field with the text up to its cap, a tap
      selects that button's emoji or colour, and nothing else changes. */
  function ApplyEdit(f: PlaylistForm, e: FormEdit): (r: PlaylistForm)
    requires EditPossible(e)
    ensures SelectionsValid(f) ==> SelectionsValid(r)
    ensures |r.title| <= TitleMaxLength || r.title == f.title
    ensures r.loading == f.loading
    ensures e.TypeTitle? ==> r == f.(title := Prefix(e.text, TitleMaxLength))
    ensures e.TypeDescription? ==> r == f.(description := Prefix(e.text, DescriptionMaxLength))
    ensures e.PickEmoji? ==> r == f.(selectedEmoji := Emojis[e.index])
    ensures e.PickColor? ==> r == f.(selectedColor := Colors[e.index])
  {
    match e
    case TypeTitle(t) => f.(title := Prefix(t, TitleMaxLength))
    case TypeDescription(t) => f.(description := Prefix(t, DescriptionMaxLength))
    case PickEmoji(i) => f.(selectedEmoji := Emojis[i])
    case PickColor(i) => f.(selectedColor := Colors[i])
  }

  function ApplyEdits(f: PlaylistForm, es: seq<FormEdit>): PlaylistForm
    requires forall k :: 0 <= k < |es| ==> EditPossible(es[k])
    decreases |es|
  {
    if es == [] then f else ApplyEdits(ApplyEdit(f, es[0]), es[1..])
  }

  /** The selections start at the first emoji and first colour and, whatever
      the user does, remain members of the two lists. */
  lemma {:induction false} SelectionsStayValid(es: seq<FormEdit>)
    requires forall k :: 0 <= k < |es| ==> EditPossible(es[k])
    ensures InitialForm.selectedEmoji == Emojis[0] && InitialForm.selectedColor == Colors[0]
    ensures SelectionsValid(ApplyEdits(InitialForm, es))
  {
    SelectionsPreserved(InitialForm, es);
  }

  lemma {:induction false} SelectionsPreserved(f: PlaylistForm, es: seq<FormEdit>)
    requires forall k :: 0 <= k < |es| ==> EditPossible(es[k])
    requires SelectionsValid(f)
    ensures SelectionsValid(ApplyEdits(f, es))
    decreases |es|
  {
    if es != [] {
      SelectionsPreserved(ApplyEdit(f, es[0]), es[1..]);
    }
  }

  /** Edits that pick no emoji leave the selected emoji alone. */
  lemma {:induction false} NoPickKeepsEmoji(f: PlaylistForm, es: seq<FormEdit>)
    requires forall k :: 0 <= k < |es| ==> EditPossible(es[k])
    requires forall k :: 0 <= k < |es| ==> !es[k].PickEmoji?
    ensures ApplyEdits(f, es).selectedEmoji == f.selectedEmoji
    decreases |es|
  {
    if es != [] {
      NoPickKeepsEmoji(ApplyEdit(f, es[0]), es[1..]);
    }
  }

  /** The last emoji tapped is the one selected, whatever else is edited. */
  lemma {:induction false} LastPickWins(f: PlaylistForm, es: seq<FormEdit>, k: nat)
    requires forall j :: 0 <= j < |es| ==> EditPossible(es[j])
    requires k < |es| && es[k].PickEmoji?
    requires forall j :: k < j < |es| ==> !es[j].PickEmoji?
    ensures ApplyEdits(f, es).selectedEmoji == Emojis[es[k].index]
    decreases |es|
  {
    if k == 0 {
      NoPickKeepsEmoji(ApplyEdit(f, es[0]), es[1..]);
    } else {
      LastPickWins(ApplyEdit(f, es[0]), es[1..], k - 1);
    }
  }

  // ---------------------------------------------------------------- submit

  /** The object posted to `/library-playlists`; `id` and `createdAt` come
      from the clock and are inputs here. */
  datatype PlaylistRecord = PlaylistRecord(
    id: string,
    title: string,
    artist: string,
    songCount: nat,
    artwork: string,
    artworkColor: string,
    createdAt: string
  )

  const DefaultArtist: string := "My Playlist"

  /** `EmptyTitle` is the "Please enter a playlist name" alert. */
  datatype Submission = EmptyTitle | Post(record: PlaylistRecord)

  /** The record `handleAddPlaylist` builds, or the refusal when the title is
      blank after trimming. */
  function BuildPlaylist(f: PlaylistForm, id: string, createdAt: string): (r: Submission)
    ensures r.EmptyTitle? <==> AllWhitespace(f.title)
    ensures r.Post? ==> var p := r.record;
      && p.title != "" && !IsJsWhitespace(p.title[0]) && !IsJsWhitespace(p.title[|p.title| - 1])
      && p.title == Trim(f.title)
      && (if AllWhitespace(f.description) then p.artist == DefaultArtist else p.artist == Trim(f.description))
      && p.songCount == 0 && p.artwork == f.selectedEmoji && p.artworkColor == f.selectedColor
      && p.id == id && p.createdAt == createdAt
  {
    TrimEmptyIff(f.title);
    TrimEmptyIff(f.description);
    TrimSpec(f.title);
    var title := Trim(f.title);
    if title == "" then EmptyTitle
    else
      var description := Trim(f.description);
      Post(PlaylistRecord(id, title, if description == "" then DefaultArtist else description,
                          0, f.selectedEmoji, f.selectedColor, createdAt))
  }

  /** Pressing "Create Playlist": a blank title leaves the form as it was
      (loading stays off, nothing is sent); otherwise loading turns on and the
      record is sent. */
  function PressCreate(f: PlaylistForm, id: string, createdAt: string): (r: (PlaylistForm, Option<PlaylistRecord>))
    ensures AllWhitespace(f.title) ==> r.0 == f && r.1 == None
    ensures !AllWhitespace(f.title) ==> r.0 == f.(loading := true) && r.1.Some? && r.1.value.title == Trim(f.title)
    ensures !AllWhitespace(f.title) ==> r.1 == Some(BuildPlaylist(f, id, createdAt).record)
  {
    match BuildPlaylist(f, id, createdAt)
    case EmptyTitle => (f, None)
    case Post(p) => (f.(loading := true), Some(p))
  }

  /** The `finally` clears loading whatever the outcome; only an ok response
      offers the way back to the library. */
  function FinishCreate(f: PlaylistForm, outcome: PostOutcome): (r: (PlaylistForm, bool))
    ensures !r.0.loading
    ensures r.0 == f.(loading := false)
    ensures r.1 <==> outcome == PostOk
  {
    (f.(loading := false), outcome == PostOk)
  }

  /** The posted record carries the emoji tapped last. */
  lemma PostedEmojiIsLastPick(f: PlaylistForm, es: seq<FormEdit>, k: nat, id: string, createdAt: string)
    requires forall j :: 0 <= j < |es| ==> EditPossible(es[j])
    requires k < |es| && es[k].PickEmoji?
    requires forall j :: k < j < |es| ==> !es[j].PickEmoji?
    requires !AllWhitespace(ApplyEdits(f, es).title)
    ensures BuildPlaylist(ApplyEdits(f, es), id, createdAt).Post?
    ensures BuildPlaylist(ApplyEdits(f, es), id, createdAt).record.artwork == Emojis[es[k].index]
  {
    LastPickWins(f, es, k);
  }

  /** A whole press: whatever the title and the outcome, loading is off
      afterwards, and a record was sent exactly when the title was not blank. */
  lemma CreateRoundTrip(f: PlaylistForm, id: string, createdAt: string, outcome: PostOutcome)
    requires !f.loading
    ensures var (g, sent) := PressCreate(f, id, createdAt);
      && (sent.Some? <==> !AllWhitespace(f.title))
      && !FinishCreate(g, outcome).0.loading
      && FinishCreate(g, outcome).0 == f
  {
  }
}

=== FILE: audio_manager.dfy ===
/** The audio table of utils/AudioManager.ts: two local tracks, looked up by
    the `audioKey` a song record may carry; every other key yields `null`. */
module AudioManager {
  import opened Base

  /** A bundled audio file, identified by its path below `assets/`. */
  datatype AudioAsset = AudioAsset(file: string)

  const Flower: AudioAsset := AudioAsset("audio/music1.mp3")
  const ShapeOfYou: AudioAsset := AudioAsset("audio/music2.mp3")

  /** `AppAudios` (private to its file). */
  const AppAudios: map<string, AudioAsset> := map[
    "flower" := Flower,
    "shape_of_you" := ShapeOfYou
  ]

  /** `getAssetAudio(key)`: `null` (`None`) for an absent or empty key and for
      a key the table lacks, otherwise the table entry. */
  function GetAssetAudio(key: Option<string>): (r: Option<AudioAsset>)
    ensures !Truthy(key) ==> r == None
    ensures r.Some? <==> Truthy(key) && key.value in AppAudios
    ensures r == None || r == Some(Flower) || r == Some(ShapeOfYou)
  {
    if !Truthy(key) then None
    else if key.value in AppAudios then Some(AppAudios[key.value])
    else None
  }

  /** Each of the two table keys yields its own track. */
  lemma KnownKeys()
    ensures GetAssetAudio(Some("flower")) == Some(Flower)
    ensures GetAssetAudio(Some("shape_of_you")) == Some(ShapeOfYou)
    ensures Flower != ShapeOfYou
  {
  }

  /** Any other non-empty key yields `null`. */
  lemma UnknownKeys(key: string)
    requires key != "" && key != "flower" && key != "shape_of_you"
    ensures GetAssetAudio(Some(key)) == None
  {
  }

  /** `AppAudios[key] || null` as JavaScript evaluates it: a key naming a member
      inherited from `Object.prototype` reads that (truthy) member instead of
      giving `null`. */
  function GetAssetAudioAsWritten(key: Option<string>): (r: JsValue<AudioAsset>)
    ensures !Truthy(key) ==> r == Null
    ensures !r.Undefined?
    ensures r.InheritedMember? <==> Truthy(key) && key.value !in AppAudios && key.value in ObjectPrototypeMembers
    ensures r.Null? <==> !Truthy(key) || (key.value !in AppAudios && key.value !in ObjectPrototypeMembers)
  {
    if !Truthy(key) then Null
    else
      var v := JsGet(AppAudios, key.value);
      if v.Undefined? then Null else v
  }

  /** The discrepancy: the key `"constructor"` returns `Object` rather than `null`. */
  lemma AsWrittenInheritedKey()
    ensures GetAssetAudioAsWritten(Some("constructor")) == InheritedMember("constructor")
    ensures GetAssetAudio(Some("constructor")) == None
  {
    assert "constructor" in ObjectPrototypeMembers;
  }

  /** Away from the inherited member names the written lookup and the model agree. */
  lemma AsWrittenAgrees(key: Option<string>)
    requires key.Some? ==> key.value !in ObjectPrototypeMembers
    ensures GetAssetAudioAsWritten(key) == (match GetAssetAudio(key) case Some(a) => Own(a) case None => Null)
  {
  }
}

=== FILE: base.dfy ===
/** Shared vocabulary: optional values, and the small pieces of JavaScript string
    semantics the screens rely on (digit filtering, `trim`, ASCII `toLowerCase`,
    `includes`, `split`, `toString` on naturals and `Number` on digit strings). */
module Base {

  /** `undefined`/`null` versus a present value. */
  datatype Option<+T> = None | Some(value: T)

  /** JavaScript truthiness of an optional string: absent and `""` are falsy. */
  predicate Truthy(o: Option<string>) {
    o.Some? && o.value != ""
  }

  /** The first `min(n, |s|)` elements of `s` (`s.substring(0, n)`, `s.slice(0, n)`). */
  function Prefix<T>(s: seq<T>, n: nat): (r: seq<T>)
    ensures |r| == if n < |s| then n else |s|
    ensures r <= s
  {
    if n < |s| then s[..n] else s
  }

  // ---------------------------------------------------------------- digits

  predicate IsDigit(c: char) {
    '0' <= c <= '9'
  }

  predicate AllDigits(s: string) {
    forall i :: 0 <= i < |s| ==> IsDigit(s[i])
  }

  /** `s.replace(/\D/g, "")`: keeps the ASCII digits of `s`, in order. */
  function DigitsOf(s: string): (r: string)
    ensures AllDigits(r)
    ensures |r| <= |s|
    ensures AllDigits(s) ==> r == s
  {
    if s == [] then []
    else (if IsDigit(s[0]) then [s[0]] else []) + DigitsOf(s[1..])
  }

  /** Digit filtering distributes over concatenation. */
  lemma {:induction false} DigitsOfAppend(a: string, b: string)
    ensures DigitsOf(a + b) == DigitsOf(a) + DigitsOf(b)
  {
    if a == [] {
      assert a + b == b;
    } else {
      assert (a + b)[0] == a[0];
      assert (a + b)[1..] == a[1..] + b;
      DigitsOfAppend(a[1..], b);
    }
  }

  /** A character that is not a digit contributes nothing. */
  lemma DigitsOfNonDigit(c: char)
    requires !IsDigit(c)
    ensures DigitsOf([c]) == []
  {
    assert [c][1..] == [];
  }

  // ------------------------------------------------------------ whitespace

  /** The characters `String.prototype.trim` removes: WhiteSpace and
      LineTerminator of section 12.2 and 12.3 of ECMA-262. */
  predicate IsJsWhitespace(c: char) {
    || c == '\t' || c == '\n' || c == '\U{000B}' || c == '\U{000C}' || c == '\r'
    || c == ' ' || c == '\U{00A0}' || c == '\U{1680}'
    || ('\U{2000}' <= c <= '\U{200A}')
    || c == '\U{2028}' || c == '\U{2029}' || c == '\U{202F}' || c == '\U{205F}'
    || c == '\U{3000}' || c == '\U{FEFF}'
  }

  predicate AllWhitespace(s: string) {
    forall i :: 0 <= i < |s| ==> IsJsWhitespace(s[i])
  }

  /** How many whitespace characters `s` starts with. */
  function LeadingWhitespace(s: string): (k: nat)
    ensures k <= |s| && AllWhitespace(s[..k])
    ensures k < |s| ==> !IsJsWhitespace(s[k])
  {
    if s != [] && IsJsWhitespace(s[0]) then
      var k := 1 + LeadingWhitespace(s[1..]);
      assert forall i :: 1 <= i < k ==> s[..k][i] == s[1..][..k - 1][i - 1];
      k
    else 0
  }

  /** Where the whitespace `s` ends with begins. */
  function TrailingStart(s: string): (k: nat)
    ensures k <= |s| && AllWhitespace(s[k..])
    ensures 0 < k ==> !IsJsWhitespace(s[k - 1])
  {
    if s != [] && IsJsWhitespace(s[|s| - 1]) then
      var k := TrailingStart(s[..|s| - 1]);
      assert forall i :: 0 <= i < |s| - 1 - k ==> s[k..][i] == s[..|s| - 1][k..][i];
      k
    else |s|
  }

  /** `s.trim()`: drops the whitespace at the end, then the whitespace at the start. */
  function Trim(s: string): string {
    var j := TrailingStart(s);
    s[LeadingWhitespace(s[..j])..j]
  }

  /** `trim` removes only surrounding whitespace: the result is a contiguous
      piece of the input, flanked by whitespace, with no whitespace at either end. */
  lemma TrimSpec(s: string)
    ensures var r := Trim(s);
      && (r == [] || (!IsJsWhitespace(r[0]) && !IsJsWhitespace(r[|r| - 1])))
      && exists i, j :: 0 <= i <= j <= |s| && r == s[i..j]
           && AllWhitespace(s[..i]) && AllWhitespace(s[j..])
  {
    var j := TrailingStart(s);
    var i := LeadingWhitespace(s[..j]);
    assert s[..j][..i] == s[..i];
    var r := Trim(s);
    if r != [] {
      assert r[0] == s[..j][i];
      assert r[|r| - 1] == s[j - 1];
    }
  }

  /** The trimmed string is empty exactly when the input is all whitespace. */
  lemma TrimEmptyIff(s: string)
    ensures Trim(s) == [] <==> AllWhitespace(s)
  {
    var j := TrailingStart(s);
    var i := LeadingWhitespace(s[..j]);
    if i == j {
      forall k | 0 <= k < |s| ensures IsJsWhitespace(s[k]) {
        if k < j { assert s[k] == s[..j][..i][k]; } else { assert s[k] == s[j..][k - j]; }
      }
    } else {
      assert Trim(s)[0] == s[i];
    }
  }

  /** A string without whitespace is its own trim. */
  lemma TrimNoWhitespace(s: string)
    requires forall i :: 0 <= i < |s| ==> !IsJsWhitespace(s[i])
    ensures Trim(s) == s
  {
    assert TrailingStart(s) == |s|;
    assert s[..|s|] == s;
    assert LeadingWhitespace(s) == 0;
  }

  // ------------------------------------------------------------ lower case

  /** `toLowerCase`, restricted to ASCII letters. */
  function LowerChar(c: char): (r: char)
    ensures 'A' <= c <= 'Z' ==> 'a' <= r <= 'z' && r as int == c as int + 32
    ensures !('A' <= c <= 'Z') ==> r == c
  {
    if 'A' <= c <= 'Z' then (c as int + 32) as char else c
  }

  function Lower(s: string): (r: string)
    ensures |r| == |s|
    ensures forall i :: 0 <= i < |s| ==> r[i] == LowerChar(s[i])
  {
    seq(|s|, i requires 0 <= i < |s| => LowerChar(s[i]))
  }

  // ------------------------------------------------------------- substring

  /** `needle` occurs in `hay` starting at position `i`. */
  predicate OccursAt(hay: string, needle: string, i: int) {
    0 <= i && i + |needle| <= |hay| && hay[i..i + |needle|] == needle
  }

  /** `hay.includes(needle)`, by scanning positions from the left. */
  function Includes(hay: string, needle: string): bool
    decreases |hay|
  {
    needle <= hay || (hay != [] && Includes(hay[1..], needle))
  }

  /** The scan finds `needle` exactly when it occurs at some position. */
  lemma {:induction false} IncludesIff(hay: string, needle: string)
    ensures Includes(hay, needle) <==> exists i :: OccursAt(hay, needle, i)
    decreases |hay|
  {
    if needle <= hay {
      assert OccursAt(hay, needle, 0);
    } else if hay == [] {
    } else {
      IncludesIff(hay[1..], needle);
      if exists i :: OccursAt(hay[1..], needle, i) {
        var i :| OccursAt(hay[1..], needle, i);
        assert hay[i + 1..i + 1 + |needle|] == hay[1..][i..i + |needle|];
        assert OccursAt(hay, needle, i + 1);
      }
      if exists i :: OccursAt(hay, needle, i) {
        var i :| OccursAt(hay, needle, i);
        assert hay[..|needle|] == hay[0..|needle|];
        assert hay[1..][i - 1..i - 1 + |needle|] == hay[i..i + |needle|];
        assert OccursAt(hay[1..], needle, i - 1);
      }
    }
  }

  // ---------------------------------------------------------------- decimal

  function DigitChar(d: nat): (c: char)
    requires d < 10
    ensures IsDigit(c)
  {
    ('0' as int + d) as char
  }

  function DigitValue(c: char): (d: nat)
    requires IsDigit(c)
    ensures d < 10 && DigitChar(d) == c
  {
    c as int - '0' as int
  }

  /** `n.toString()` for a natural number: decimal digits, no leading zero. */
  function NatToString(n: nat): (s: string)
    ensures |s| >= 1 && AllDigits(s)
    ensures |s| > 1 ==> s[0] != '0'
    decreases n
  {
    if n < 10 then [DigitChar(n)] else NatToString(n / 10) + [DigitChar(n % 10)]
  }

  /** The value of a string of decimal digits (`""` reads as 0). */
  function DecimalValue(s: string): nat
    requires AllDigits(s)
    decreases |s|
  {
    if s == [] then 0 else 10 * DecimalValue(s[..|s| - 1]) + DigitValue(s[|s| - 1])
  }

  /** Reading back a rendered natural gives the natural. */
  lemma {:induction false} DecimalValueOfNatToString(n: nat)
    ensures DecimalValue(NatToString(n)) == n
    decreases n
  {
    var s := NatToString(n);
    if n >= 10 {
      assert s[..|s| - 1] == NatToString(n / 10);
      DecimalValueOfNatToString(n / 10);
    }
  }

  /** `n.toString().padStart(2, "0")`. */
  function Pad2(n: nat): (s: string)
    ensures AllDigits(s)
    ensures n < 100 ==> |s| == 2
  {
    if n < 10 then "0" + NatToString(n)
    else
      assert n < 100 ==> |NatToString(n / 10)| == 1;
      NatToString(n)
  }

  /** Two-digit padding is undone by reading the digits back. */
  lemma Pad2Value(n: nat)
    requires n < 100
    ensures DecimalValue(Pad2(n)) == n
  {
    var s := Pad2(n);
    if n < 10 {
      assert s[..1] == "0";
      assert DecimalValue(s[..1][..0]) == 0;
    } else {
      DecimalValueOfNatToString(n);
    }
  }

  /** JavaScript `Number(s)` on the strings this model admits: surrounding
      whitespace is ignored, the empty string is 0, a run of decimal digits is
      its value; every other string is `NaN` (`None`). */
  function JsNumber(s: string): (r: Option<nat>)
    ensures r.Some? <==> AllDigits(Trim(s))
  {
    var t := Trim(s);
    if AllDigits(t) then Some(DecimalValue(t)) else None
  }

  /** A digit string reads back, through `Number`, as its decimal value. */
  lemma JsNumberOfDigits(t: string)
    requires AllDigits(t)
    ensures JsNumber(t) == Some(DecimalValue(t))
    ensures ':' !in t
  {
    assert forall i :: 0 <= i < |t| ==> !IsJsWhitespace(t[i]);
    TrimNoWhitespace(t);
    assert forall i :: 0 <= i < |t| ==> t[i] != ':';
  }

  /** `Number(String(n))` is `n`. */
  lemma JsNumberOfNatToString(n: nat)
    ensures JsNumber(NatToString(n)) == Some(n)
  {
    JsNumberOfDigits(NatToString(n));
    DecimalValueOfNatToString(n);
  }

  // ------------------------------------------------------------------ split

  /** `s.split(sep)` for a one-character separator. */
  function Split(s: string, sep: char): (parts: seq<string>)
    ensures |parts| >= 1
    ensures forall k :: 0 <= k < |parts| ==> sep !in parts[k]
    ensures |parts| > 1 ==> sep in s
    decreases |s|
  {
    if s == [] then [[]]
    else if s[0] == sep then [[]] + Split(s[1..], sep)
    else
      var rest := Split(s[1..], sep);
      [[s[0]] + rest[0]] + rest[1..]
  }

  /** Splitting `a + sep + b`, where `a` holds no separator, yields `a` then the pieces of `b`. */
  lemma {:induction false} SplitAt(a: string, sep: char, b: string)
    requires sep !in a
    ensures Split(a + [sep] + b, sep) == [a] + Split(b, sep)
    decreases |a|
  {
    var s := a + [sep] + b;
    if a == [] {
      assert s[1..] == b;
    } else {
      assert s[1..] == a[1..] + [sep] + b;
      SplitAt(a[1..], sep, b);
      assert [a[0]] + a[1..] == a;
    }
  }

  /** A string without the separator splits into itself alone. */
  lemma {:induction false} SplitNone(s: string, sep: char)
    requires sep !in s
    ensures Split(s, sep) == [s]
    decreases |s|
  {
    if s != [] {
      SplitNone(s[1..], sep);
      assert [s[0]] + s[1..] == s;
    }
  }

  // ------------------------------------------------------------ subsequence

  /** `a` can be obtained from `b` by deleting elements, keeping the order. */
  predicate Subsequence<T(==)>(a: seq<T>, b: seq<T>)
    decreases |b|
  {
    if a == [] then true
    else if b == [] then false
    else (a[0] == b[0] && Subsequence(a[1..], b[1..])) || Subsequence(a, b[1..])
  }

  lemma {:induction false} SubsequenceRefl<T>(s: seq<T>)
    ensures Subsequence(s, s)
    decreases |s|
  {
    if s != [] {
      SubsequenceRefl(s[1..]);
    }
  }

  // --------------------------------------------------------------- requests

  /** How a `fetch` POST ended: `response.ok`, a non-ok response, or a thrown
      error. */
  datatype PostOutcome = PostOk | PostNotOk | PostThrew

  // ------------------------------------------------------- object lookup

  /** A JavaScript value as the lookups see it: an own property of an object
      literal, a member inherited from `Object.prototype`, `undefined`, or
      `null`. */
  datatype JsValue<+T> = Own(value: T) | InheritedMember(name: string) | Undefined | Null

  /** The property names every object literal inherits from `Object.prototype`;
      each of them reads as a truthy value (a function, or the prototype itself). */
  const ObjectPrototypeMembers: set<string> := {
    "constructor", "hasOwnProperty", "isPrototypeOf", "propertyIsEnumerable",
    "toLocaleString", "toString", "valueOf", "__proto__",
    "__defineGetter__", "__defineSetter__", "__lookupGetter__", "__lookupSetter__"
  }

  /** `obj[key]` for an object literal whose own properties are `own`. */
  function JsGet<T>(own: map<string, T>, key: string): (r: JsValue<T>)
    ensures r.Own? <==> key in own
    ensures r.Own? ==> r.value == own[key]
    ensures r.InheritedMember? <==> key !in own && key in ObjectPrototypeMembers
    ensures r.InheritedMember? ==> r.name == key
    ensures !r.Null?
  {
    if key in own then Own(own[key])
    else if key in ObjectPrototypeMembers then InheritedMember(key)
    else Undefined
  }
}

=== FILE: data.dfy ===
/** The `Song` record of interfaces/data.ts, shared by the search, player and
    playlist screens. `audioKey` and `artworkKey` are not declared there but are
    carried by the json-server records and read by the player, so they are
    optional fields here. */
module Data {
  import opened Base
  import ImageManager

  /** `artwork: any`: a URL string (search results), a bundled picture
      (`require(...)` in the older mock data), or nothing. */
  datatype Artwork = ArtworkUrl(url: string) | ArtworkAsset(asset: ImageManager.ImageAsset) | NoArtwork

  datatype Song = Song(
    id: string,
    title: string,
    artist: string,
    artwork: Artwork,
    duration: Option<string>,       // "M:SS" text of the older mock data
    durationMillis: Option<nat>,
    plays: Option<string>,
    audioUrl: Option<string>,
    audioKey: Option<string>,
    artworkKey: Option<string>
  )

  /** The ids of a list of songs. */
  function Ids(songs: seq<Song>): set<string> {
    set i | 0 <= i < |songs| :: songs[i].id
  }

  /** No two entries share an id. */
  predicate UniqueIds(songs: seq<Song>) {
    forall i, j :: 0 <= i < j < |songs| ==> songs[i].id != songs[j].id
  }
}

=== FILE: image_manager.dfy ===
/** The image table of utils/ImageManager.ts: asset keys used by the data
    files, mapped to the bundled picture each one names, with a placeholder
    for every key the table does not hold. */
module ImageManager {
  import opened Base

  /** A bundled picture, identified by its file below `assets/`. */
  datatype ImageAsset = ImageAsset(file: string)

  /** The fallback picture. */
  const Placeholder: ImageAsset := ImageAsset("Feed - Audio Listing/Image 93.png")

  /** `AppImages`, key by key. */
  const AppImages: map<string, ImageAsset> := map[
    "avatar_3" := ImageAsset("Home - Audio Listing/Avatar 3.png"),
    "avatar_4" := ImageAsset("Home - Audio Listing/bieber-coverstory-square (1).jpg"),
    "suggestion_26" := ImageAsset("Home - Audio Listing/Container 26.png"),
    "suggestion_27" := ImageAsset("Home - Audio Listing/Container 27.png"),
    "suggestion_28" := ImageAsset("Home - Audio Listing/Picture10.jpg"),
    "chart_31" := ImageAsset("Home - Audio Listing/Container 31.png"),
    "chart_32" := ImageAsset("Home - Audio Listing/Container 32.png"),
    "chart_33" := ImageAsset("Home - Audio Listing/Container 33.png"),
    "album_45" := ImageAsset("Home - Audio Listing/Image 45.png"),
    "album_46" := ImageAsset("Home - Audio Listing/Image 46.png"),
    "artist_39" := ImageAsset("Home - Audio Listing/Image 39.png"),
    "artist_40" := ImageAsset("Home - Audio Listing/Image 40.png"),
    "artist_41" := ImageAsset("Home - Audio Listing/Image 41.png"),
    "song_47" := ImageAsset("Home - Audio Listing/Image 47.png"),
    "song_40" := ImageAsset("Home - Audio Listing/Image 40.png"),
    "song_50" := ImageAsset("Playlist Details - Audio Listing/Image 50.png"),
    "song_51" := ImageAsset("Playlist Details - Audio Listing/Image 51.png"),
    "song_52" := ImageAsset("Playlist Details - Audio Listing/Image 52.png"),
    "song_54" := ImageAsset("Playlist Details - Audio Listing/Image 54.png"),
    "song_55" := ImageAsset("Playlist Details - Audio Listing/Image 55.png"),
    "artist_album_71" := ImageAsset("Artist Profile/Image 71.png"),
    "artist_album_72" := ImageAsset("Artist Profile/Image 72.png"),
    "artist_album_73" := ImageAsset("Artist Profile/Image 73.png"),
    "fans_74" := ImageAsset("Artist Profile/Image 74.png"),
    "fans_75" := ImageAsset("Artist Profile/Image 75.png"),
    "fans_76" := ImageAsset("Artist Profile/Image 76.png"),
    "search_artist_101" := ImageAsset("My Library/Image 101.png"),
    "search_song_102" := ImageAsset("My Library/Image 102.png"),
    "search_song_103" := ImageAsset("My Library/Image 103.png"),
    "search_song_104" := ImageAsset("My Library/Image 104.png"),
    "search_song_105" := ImageAsset("My Library/Image 105.png"),
    "search_song_106" := ImageAsset("My Library/Image 106.png"),
    "search_song_107" := ImageAsset("My Library/Image 107.png"),
    "welcome_bg" := ImageAsset("Launch Screen/Image 30.png"),
    "welcome_logo" := ImageAsset("Launch Screen - Premium/Image 113.png"),
    "Image93" := ImageAsset("Feed - Comment on an Audio/taylor-d_TRVE.jpg"),
    "Image94" := ImageAsset("Feed - Comment on an Audio/music1.jpg"),
    "Avartar1" := ImageAsset("Feed - Comment on an Audio/avt.jpg"),
    "Avartar2" := ImageAsset("Feed - Comment on an Audio/avt1.jpg"),
    "Avartar3" := ImageAsset("Feed - Comment on an Audio/avt2.jpg"),
    "Avartar4" := ImageAsset("Feed - Comment on an Audio/avt3.jpg")
  ]

  /** The fallback is a picture of its own: no table key names it. */
  lemma PlaceholderNotInTable()
    ensures Placeholder !in AppImages.Values
  {
  }

  /** `getAssetImage(key)`: the entry stored under `key`, or the placeholder.
      Only keys the table itself holds are looked up (see
      `GetAssetImageAsWritten` for the inherited-member case). */
  function GetAssetImage(key: string): (r: ImageAsset)
    ensures r == Placeholder || r in AppImages.Values
    ensures key in AppImages ==> r == AppImages[key]
  {
    if key in AppImages then AppImages[key] else Placeholder
  }

  /** The placeholder comes back exactly for the keys the table lacks. */
  lemma PlaceholderIffMissing(key: string)
    ensures GetAssetImage(key) == Placeholder <==> key !in AppImages
  {
    PlaceholderNotInTable();
    if key in AppImages {
      assert AppImages[key] in AppImages.Values;
    }
  }

  /** The table is not injective: two keys name the same picture. */
  lemma TableNotInjective()
    ensures exists k1, k2 :: k1 in AppImages && k2 in AppImages && k1 != k2 && AppImages[k1] == AppImages[k2]
  {
    assert AppImages["artist_40"] == AppImages["song_40"];
  }

  /** `AppImages[key] || placeholder` as JavaScript evaluates it: a key naming a
      member inherited from `Object.prototype` reads that member, which is
      truthy, so it comes back instead of the placeholder. */
  function GetAssetImageAsWritten(key: string): (r: JsValue<ImageAsset>)
    ensures r.Undefined? == false
    ensures key in AppImages ==> r == Own(AppImages[key])
    ensures r.InheritedMember? <==> key !in AppImages && key in ObjectPrototypeMembers
  {
    var v := JsGet(AppImages, key);
    if v.Undefined? then Own(Placeholder) else v
  }

  /** The discrepancy: for the key `"toString"` the lookup returns a function
      rather than the placeholder. */
  lemma AsWrittenInheritedKey()
    ensures GetAssetImageAsWritten("toString") == InheritedMember("toString")
    ensures GetAssetImage("toString") == Placeholder
  {
    assert "toString" in ObjectPrototypeMembers;
  }

  /** Away from the inherited member names the written lookup and the model agree. */
  lemma AsWrittenAgrees(key: string)
    requires key !in ObjectPrototypeMembers
    ensures GetAssetImageAsWritten(key) == Own(GetAssetImage(key))
  {
  }
}

=== FILE: payment.dfy ===
/** The card form of screens/PaymentScreen.tsx: the three input formatters
    (card number grouped by four, `MM/YY` expiry, CVC) and the ordered checks
    run when "pay" is pressed. */
module Payment {
  import opened Base

  // ------------------------------------------------------------ card number

  /** `digits.match(/.{1,4}/g)?.join(" ") || ""`: runs of four characters
      joined by single spaces (the last run may be shorter). */
  function Group4(ds: string): string
    decreases |ds|
  {
    if |ds| <= 4 then ds else ds[..4] + " " + Group4(ds[4..])
  }

  /** A grouped card number: a space at every fifth position and only there,
      digits everywhere else, and no space at the end. */
  predicate CardShaped(s: string) {
    && (forall i :: 0 <= i < |s| ==> (s[i] == ' ' <==> i % 5 == 4))
    && (forall i :: 0 <= i < |s| && s[i] != ' ' ==> IsDigit(s[i]))
    && (s == [] || s[|s| - 1] != ' ')
  }

  /** A grouped card number neither starts nor ends with a space and never
      holds two spaces in a row. */
  lemma CardShapedSpacing(s: string)
    requires CardShaped(s)
    ensures s == [] || (s[0] != ' ' && s[|s| - 1] != ' ')
    ensures forall i :: 0 <= i < |s| - 1 ==> !(s[i] == ' ' && s[i + 1] == ' ')
  {
    forall i | 0 <= i < |s| - 1 ensures !(s[i] == ' ' && s[i + 1] == ' ') {
      if s[i] == ' ' {
        assert i % 5 == 4;
        assert (i + 1) % 5 == 0;
      }
    }
  }

  /** Grouping a string of digits yields a grouped card number whose length
      is the digit count plus one space per further run of four. */
  lemma {:induction false} Group4Shape(ds: string)
    requires AllDigits(ds)
    ensures CardShaped(Group4(ds))
    ensures |Group4(ds)| == if ds == [] then 0 else |ds| + (|ds| - 1) / 4
    decreases |ds|
  {
    var g := Group4(ds);
    if |ds| > 4 {
      var rest := Group4(ds[4..]);
      Group4Shape(ds[4..]);
      assert g == ds[..4] + " " + rest;
      forall i | 0 <= i < |g| ensures (g[i] == ' ' <==> i % 5 == 4) && (g[i] != ' ' ==> IsDigit(g[i])) {
        if i < 4 {
          assert g[i] == ds[i];
        } else if i >= 5 {
          assert g[i] == rest[i - 5];
          assert (i - 5) % 5 == i % 5;
        }
      }
      assert g[|g| - 1] == rest[|rest| - 1];
    } else {
      forall i | 0 <= i < |g| ensures (g[i] == ' ' <==> i % 5 == 4) && (g[i] != ' ' ==> IsDigit(g[i])) {
        assert i % 5 == i;
      }
    }
  }

  /** Dropping the spaces of a grouped digit string gives the digits back. */
  lemma {:induction false} Group4Digits(ds: string)
    requires AllDigits(ds)
    ensures DigitsOf(Group4(ds)) == ds
    decreases |ds|
  {
    if |ds| > 4 {
      Group4Digits(ds[4..]);
      DigitsOfAppend(ds[..4] + " ", Group4(ds[4..]));
      DigitsOfAppend(ds[..4], " ");
      DigitsOfNonDigit(' ');
      assert ds[..4] + ds[4..] == ds;
    }
  }

  /** Cutting a grouping after `k` runs of four (and their separators) is the
      same as grouping the first `4k` characters. */
  lemma {:induction false} PrefixGroup4(ds: string, k: nat)
    requires k >= 1
    ensures Prefix(Group4(ds), 5 * k - 1) == Group4(Prefix(ds, 4 * k))
    decreases k
  {
    if |ds| > 4 {
      var rest := Group4(ds[4..]);
      var p := Prefix(ds, 4 * k);
      if k == 1 {
        assert Prefix(Group4(ds), 4) == ds[..4];
      } else {
        PrefixGroup4(ds[4..], k - 1);
        assert Prefix(ds[4..], 4 * (k - 1)) == p[4..];
        assert p[..4] == ds[..4];
        calc {
          Prefix(Group4(ds), 5 * k - 1);
          Prefix(ds[..4] + " " + rest, 5 * k - 1);
          { assert 5 * k - 1 == 5 + (5 * (k - 1) - 1); }
          ds[..4] + " " + Prefix(rest, 5 * (k - 1) - 1);
          ds[..4] + " " + Group4(p[4..]);
          Group4(p);
        }
      }
    }
  }

  /** `handleCardNumberChange(text)`: the value the card field is set to. Only
      digits and single spaces, at most 19 characters, and the digits are the
      first 16 (or fewer) digits typed, in order; every other character of the
      input is discarded. */
  function FormatCardNumber(text: string): (r: string)
    ensures CardShaped(r)
    ensures |r| <= 19
    ensures DigitsOf(r) == Prefix(DigitsOf(text), 16)
  {
    var ds := DigitsOf(text);
    PrefixGroup4(ds, 4);
    Group4Shape(Prefix(ds, 16));
    Group4Digits(Prefix(ds, 16));
    Prefix(Group4(ds), 19)
  }

  /** Formatting an already formatted card number leaves it unchanged. */
  lemma FormatCardNumberIdempotent(text: string)
    ensures FormatCardNumber(FormatCardNumber(text)) == FormatCardNumber(text)
  {
    var ds := DigitsOf(text);
    var p := Prefix(ds, 16);
    PrefixGroup4(ds, 4);
    var r := FormatCardNumber(text);
    assert r == Group4(p);
    PrefixGroup4(p, 4);
    assert Prefix(p, 16) == p;
  }

  /** The field reaches its full 19 characters exactly when 16 or more digits
      were typed. */
  lemma FormatCardNumberFull(text: string)
    ensures |FormatCardNumber(text)| == 19 <==> |DigitsOf(text)| >= 16
  {
    var ds := DigitsOf(text);
    PrefixGroup4(ds, 4);
    Group4Shape(Prefix(ds, 16));
  }

  // ----------------------------------------------------------------- expiry

  /** `handleExpiryChange(text)`, given the field's previous value: with three
      or more digits the first two, a slash and the next (at most two);
      otherwise the bare digits. There is no month-range check. */
  function FormatExpiry(previous: string, text: string): (r: string)
    ensures var ds := DigitsOf(text);
      && (|ds| >= 3 ==> (|r| == 4 || |r| == 5) && r[..2] == ds[..2] && r[2] == '/' && r[3..] == Prefix(ds[2..], 2))
      && (|ds| <= 2 ==> r == ds)
    ensures |r| <= 5
  {
    var ds := DigitsOf(text);
    if |ds| >= 3 then ds[..2] + "/" + Prefix(ds[2..], 2)
    else if |ds| == 2 && |previous| == 3 then ds
    else ds
  }

  /** The previous value never influences the result (the branch for a deleted
      slash gives what the plain branch gives). */
  lemma FormatExpiryIgnoresPrevious(p1: string, p2: string, text: string)
    ensures FormatExpiry(p1, text) == FormatExpiry(p2, text)
  {
  }

  /** The digits of the formatted expiry are the first four digits typed. */
  lemma FormatExpiryDigits(previous: string, text: string)
    ensures DigitsOf(FormatExpiry(previous, text)) == Prefix(DigitsOf(text), 4)
  {
    var ds := DigitsOf(text);
    if |ds| >= 3 {
      var tail := Prefix(ds[2..], 2);
      DigitsOfAppend(ds[..2] + "/", tail);
      DigitsOfAppend(ds[..2], "/");
      DigitsOfNonDigit('/');
      assert ds[..2] + tail == Prefix(ds, 4);
    }
  }

  /** Formatting a formatted expiry leaves it unchanged. */
  lemma FormatExpiryIdempotent(previous: string, text: string)
    ensures var r := FormatExpiry(previous, text); FormatExpiry(r, r) == r
  {
    FormatExpiryDigits(previous, text);
    var ds := DigitsOf(text);
    var r := FormatExpiry(previous, text);
    if |ds| >= 3 {
      assert r == ds[..2] + "/" + Prefix(ds[2..], 2);
      var d2 := Prefix(ds, 4);
      assert d2[..2] == ds[..2];
      assert Prefix(d2[2..], 2) == Prefix(ds[2..], 2);
    }
  }

  /** The expiry field reaches its full five characters exactly when four or
      more digits were typed. */
  lemma FormatExpiryFull(previous: string, text: string)
    ensures |FormatExpiry(previous, text)| == 5 <==> |DigitsOf(text)| >= 4
  {
  }

  // -------------------------------------------------------------------- cvc

  /** `handleCvcChange(text)`: the longest run of at most four of the digits
      typed, from the start. */
  function FormatCvc(text: string): (r: string)
    ensures AllDigits(r)
    ensures r <= DigitsOf(text)
    ensures |r| == if |DigitsOf(text)| < 4 then |DigitsOf(text)| else 4
  {
    Prefix(DigitsOf(text), 4)
  }

  // ------------------------------------------------------------ validation

  datatype PaymentForm = PaymentForm(cardHolder: string, cardNumber: string, expiry: string, cvc: string)

  /** The three alerts of `handlePayment`, in the order they are checked. */
  datatype PaymentError = MissingDetails | InvalidCardNumber | InvalidExpiry

  /** `Processing` is the path that sets `loading` and starts the payment. */
  datatype PaymentOutcome = Rejected(error: PaymentError) | Processing

  predicate AllFilled(f: PaymentForm) {
    f.cardHolder != "" && f.cardNumber != "" && f.expiry != "" && f.cvc != ""
  }

  /** `handlePayment()`: any empty field is reported first, then a card number
      shorter than 19 characters, then an expiry shorter than 5. The CVC length
      and the holder name are checked only for being non-empty. */
  function HandlePayment(f: PaymentForm): (o: PaymentOutcome)
    ensures o == Processing <==> AllFilled(f) && |f.cardNumber| >= 19 && |f.expiry| >= 5
    ensures o == Rejected(MissingDetails) <==> !AllFilled(f)
    ensures o == Rejected(InvalidCardNumber) <==> AllFilled(f) && |f.cardNumber| < 19
    ensures o == Rejected(InvalidExpiry) <==> AllFilled(f) && |f.cardNumber| >= 19 && |f.expiry| < 5
  {
    if !AllFilled(f) then Rejected(MissingDetails)
    else if |f.cardNumber| < 19 then Rejected(InvalidCardNumber)
    else if |f.expiry| < 5 then Rejected(InvalidExpiry)
    else Processing
  }

  /** For a form filled through the three formatters, payment proceeds exactly
      when a holder name was typed, at least 16 card digits, at least 4 expiry
      digits and at least one CVC digit. */
  lemma PaymentOfTypedInput(holder: string, cardText: string, previousExpiry: string, expiryText: string, cvcText: string)
    ensures var f := PaymentForm(holder, FormatCardNumber(cardText), FormatExpiry(previousExpiry, expiryText), FormatCvc(cvcText));
      HandlePayment(f) == Processing <==>
        holder != "" && |DigitsOf(cardText)| >= 16 && |DigitsOf(expiryText)| >= 4 && DigitsOf(cvcText) != []
  {
    FormatCardNumberFull(cardText);
    FormatExpiryFull(previousExpiry, expiryText);
    var card := FormatCardNumber(cardText);
    if |DigitsOf(cardText)| >= 16 {
      assert |DigitsOf(card)| == 16;
    }
    if card == [] {
      assert DigitsOf(card) == [];
    }
  }
}

=== FILE: player.dfy ===
/** The playback logic of screens/PlayerScreen.tsx: choosing what to load for
    a song, the start and end of `loadSound`, the status callback, the
    play/pause button, the `M:SS` time labels and the artwork choice. The
    platform's sound object is an abstract handle; what the platform reports
    is an input to each transition. */
module Player {
  import opened Base
  import opened Data
  import ImageManager
  import AudioManager

  /** An `Audio.Sound` object held by the screen. */
  datatype SoundHandle = SoundHandle(id: nat)

  /** A millisecond count as the screen stores it; `NotANumber` is what a
      malformed `"M:SS"` text produces. */
  datatype Millis = Ms(ms: nat) | NotANumber

  // ---------------------------------------------------------------- source

  /** What `Audio.Sound.createAsync` is given: `{ uri }` or a local asset
      (`null` when the key names no asset). */
  datatype SoundSource = RemoteUri(uri: string) | LocalAudio(asset: Option<AudioManager.AudioAsset>)

  /** The chosen source with the duration hint that goes with it, or nothing
      to play. */
  datatype SourceChoice = LoadFrom(source: SoundSource, hint: nat) | NoSource

  /** `x || 0` for an optional count: the count when present, else 0 (used
      for the song's `durationMillis` and for the platform's reported one). */
  function OrZero(d: Option<nat>): nat {
    if d.Some? then d.value else 0
  }

  /** The source selection at the top of `loadSound`: a non-empty `audioUrl`
      first (hint `durationMillis || 0`), then a non-empty `audioKey` looked up
      in the audio table (hint 0), otherwise nothing. */
  function ChooseSource(song: Song): (c: SourceChoice)
    ensures c.NoSource? <==> !Truthy(song.audioUrl) && !Truthy(song.audioKey)
    ensures c.LoadFrom? && c.source.RemoteUri? <==> Truthy(song.audioUrl)
    ensures c.LoadFrom? && c.source.RemoteUri? ==>
      c.source.uri == song.audioUrl.value && c.hint == OrZero(song.durationMillis)
    ensures c.LoadFrom? && c.source.LocalAudio? ==>
      c.source.asset == AudioManager.GetAssetAudio(song.audioKey) && c.hint == 0
  {
    if Truthy(song.audioUrl) then LoadFrom(RemoteUri(song.audioUrl.value), OrZero(song.durationMillis))
    else if Truthy(song.audioKey) then LoadFrom(LocalAudio(AudioManager.GetAssetAudio(song.audioKey)), 0)
    else NoSource
  }

  /** The URL wins when a song carries both a URL and a key. */
  lemma UrlBeforeKey(song: Song)
    requires Truthy(song.audioUrl) && Truthy(song.audioKey)
    ensures ChooseSource(song) == LoadFrom(RemoteUri(song.audioUrl.value), OrZero(song.durationMillis))
  {
  }

  /** A song without a URL is never streamed. */
  lemma NoUrlNeverRemote(song: Song)
    requires !Truthy(song.audioUrl)
    ensures ChooseSource(song).NoSource? || ChooseSource(song).source.LocalAudio?
  {
  }

  // --------------------------------------------------------------- duration

  /** `song.duration.split(":").map(Number)` followed by
      `(parts[0] * 60 + parts[1]) * 1000`; pieces after the second are ignored,
      and a text without a colon leaves `parts[1]` undefined. */
  function ParseDuration(text: string): (r: Millis)
    ensures r.Ms? ==> r.ms % 1000 == 0
    ensures r.Ms? ==> ':' in text
  {
    var parts := Split(text, ':');
    if |parts| < 2 then NotANumber
    else
      match (JsNumber(parts[0]), JsNumber(parts[1]))
      case (Some(m), Some(s)) =>
        var k := m * 60 + s;
        assert (k * 1000) % 1000 == 0;
        Ms(k * 1000)
      case _ => NotANumber
  }

  // ---------------------------------------------------------------- formatting

  /** `formatTime(millis)`: unpadded whole minutes, a colon, and the seconds
      within the minute as two digits. The minutes field reads back as
      `ms div 60000`, the seconds field as `(ms div 1000) mod 60`. */
  function FormatTime(ms: nat): (r: string)
    ensures |r| >= 4 && r[|r| - 3] == ':'
    ensures AllDigits(r[..|r| - 3]) && AllDigits(r[|r| - 2..])
    ensures DecimalValue(r[..|r| - 3]) == ms / 60000
    ensures DecimalValue(r[|r| - 2..]) == (ms / 1000) % 60 < 60
    ensures |r| > 4 ==> r[0] != '0'
  {
    var m := NatToString(ms / 60000);
    var s := Pad2((ms / 1000) % 60);
    var r := m + ":" + s;
    assert r[..|r| - 3] == m && r[|r| - 2..] == s;
    DecimalValueOfNatToString(ms / 60000);
    Pad2Value((ms / 1000) % 60);
    r
  }

  /** Whole minutes and seconds below 60 are rendered as `m + ":" + pad2(s)`. */
  lemma FormatTimeOfParts(m: nat, s: nat)
    requires s < 60
    ensures FormatTime((m * 60 + s) * 1000) == NatToString(m) + ":" + Pad2(s)
  {
    var ms := (m * 60 + s) * 1000;
    assert ms == m * 60000 + s * 1000;
    assert ms / 60000 == m;
    assert ms / 1000 == m * 60 + s;
    assert (ms / 1000) % 60 == s;
  }

  /** Any two runs of digits around a colon, padded or not (`"03:35"` as well
      as `"3:35"`), parse to `(a * 60 + b) * 1000` of their decimal values. */
  lemma ParseDigitsColonDigits(a: string, b: string)
    requires AllDigits(a) && AllDigits(b) && a != "" && b != ""
    ensures ParseDuration(a + ":" + b) == Ms((DecimalValue(a) * 60 + DecimalValue(b)) * 1000)
  {
    JsNumberOfDigits(a);
    JsNumberOfDigits(b);
    SplitAt(a, ':', b);
    SplitNone(b, ':');
    assert a + ":" + b == a + [':'] + b;
  }

  lemma TwoDigits(a: char, b: char)
    requires '0' <= a <= '9' && '0' <= b <= '9'
    ensures DecimalValue([a, b]) == (a as int - '0' as int) * 10 + (b as int - '0' as int)
  {
    var s := [a, b];
    assert s[..1] == [a] && [a][..0] == [];
    assert DecimalValue([a]) == DigitValue(a);
    assert DecimalValue(s) == 10 * DecimalValue([a]) + DigitValue(b);
  }

  /** One duration text of the song list of screens/PlaylistScreen.tsx: two
      minute digits (zero-padded) and two second digits. */
  lemma ParsePaddedDuration(m1: char, m2: char, s1: char, s2: char)
    requires '0' <= m1 <= '9' && '0' <= m2 <= '9' && '0' <= s1 <= '9' && '0' <= s2 <= '9'
    ensures ParseDuration([m1, m2, ':', s1, s2]) ==
      Ms((((m1 as int - '0' as int) * 10 + (m2 as int - '0' as int)) * 60 + (s1 as int - '0' as int) * 10 + (s2 as int - '0' as int)) * 1000)
  {
    ParseDigitsColonDigits([m1, m2], [s1, s2]);
    assert [m1, m2] + ":" + [s1, s2] == [m1, m2, ':', s1, s2];
    TwoDigits(m1, m2);
    TwoDigits(s1, s2);
  }

  /** "Shape of You" in the song list of screens/PlaylistScreen.tsx lasts
      `"03:35"`, which the player reads as 215 seconds. */
  lemma ShapeOfYouDuration()
    ensures ParseDuration("03:35") == Ms(215000)
  {
    ParsePaddedDuration('0', '3', '3', '5');
  }

  /** Minutes, a colon and two-digit seconds parse to `(m * 60 + s) * 1000`. */
  lemma ParseMinutesSeconds(m: nat, s: nat)
    requires s < 100
    ensures ParseDuration(NatToString(m) + ":" + Pad2(s)) == Ms((m * 60 + s) * 1000)
  {
    DecimalValueOfNatToString(m);
    Pad2Value(s);
    ParseDigitsColonDigits(NatToString(m), Pad2(s));
  }

  /** `ms div 1000` splits into whole minutes and the seconds within the minute. */
  lemma SecondsSplit(ms: nat)
    ensures (ms / 60000 * 60 + (ms / 1000) % 60) * 1000 == ms / 1000 * 1000
  {
    var q := ms / 60000;
    var rem := ms % 60000;
    assert ms == q * 60000 + rem;
    assert ms / 1000 == q * 60 + rem / 1000;
    assert rem / 1000 < 60;
    assert (ms / 1000) % 60 == rem / 1000;
  }

  /** Parsing a rendered time gives back the milliseconds, cut to whole seconds. */
  lemma ParseFormatTime(ms: nat)
    ensures ParseDuration(FormatTime(ms)) == Ms(ms / 1000 * 1000)
  {
    ParseMinutesSeconds(ms / 60000, (ms / 1000) % 60);
    SecondsSplit(ms);
  }

  /** An `"M:SS"` text with seconds below 60 survives parsing and rendering:
      `formatTime` of the parsed duration is the text itself. */
  lemma DurationRoundTrip(m: nat, s: nat)
    requires s < 60
    ensures ParseDuration(NatToString(m) + ":" + Pad2(s)) == Ms((m * 60 + s) * 1000)
    ensures FormatTime((m * 60 + s) * 1000) == NatToString(m) + ":" + Pad2(s)
  {
    ParseMinutesSeconds(m, s);
    FormatTimeOfParts(m, s);
  }

  /** The duration label under the progress bar: `formatTime(duration)`. A
      malformed `"M:SS"` text leaves `NaN` in the state, and every step of
      `formatTime` keeps it, so the label reads `"NaN:NaN"`. */
  function DurationLabel(d: Millis): (r: string)
    ensures d.NotANumber? ==> r == "NaN:NaN"
    ensures d.Ms? ==> r == FormatTime(d.ms)
  {
    match d
    case Ms(ms) => FormatTime(ms)
    case NotANumber => "NaN:NaN"
  }

  /** A canonical `"M:SS"` text is labelled as itself; a duration text with no
      colon is labelled `"NaN:NaN"`. */
  lemma DurationLabelOfText(m: nat, s: nat, bare: string)
    requires s < 60 && ':' !in bare
    ensures DurationLabel(ParseDuration(NatToString(m) + ":" + Pad2(s))) == NatToString(m) + ":" + Pad2(s)
    ensures DurationLabel(ParseDuration(bare)) == "NaN:NaN"
  {
    DurationRoundTrip(m, s);
    SplitNone(bare, ':');
  }

  // ------------------------------------------------------------------- state

  datatype PlayerState = PlayerState(
    sound: Option<SoundHandle>,
    isPlaying: bool,
    isLoading: bool,
    currentTime: nat,
    duration: Millis
  )

  /** The state when the screen mounts. */
  const Mounted: PlayerState := PlayerState(None, false, true, 0, Ms(0))

  /** The synchronous start of `loadSound`: loading turns on and a source is
      chosen. With no source nothing is loaded, loading turns off again and the
      duration is taken from a non-empty `"M:SS"` text if the song has one. */
  function StartLoad(st: PlayerState, song: Song): (r: (PlayerState, SourceChoice))
    ensures r.1 == ChooseSource(song)
    ensures r.1.LoadFrom? ==> r.0 == st.(isLoading := true)
    ensures r.1.NoSource? ==> !r.0.isLoading && r.0.sound == st.sound && r.0.isPlaying == st.isPlaying
    ensures r.1.NoSource? ==> r.0.currentTime == st.currentTime
    ensures r.1.NoSource? && Truthy(song.duration) ==> r.0.duration == ParseDuration(song.duration.value)
    ensures r.1.NoSource? && !Truthy(song.duration) ==> r.0.duration == st.duration
  {
    var loading := st.(isLoading := true);
    match ChooseSource(song)
    case LoadFrom(src, hint) => (loading, LoadFrom(src, hint))
    case NoSource =>
      var done := loading.(isLoading := false);
      if Truthy(song.duration) then (done.(duration := ParseDuration(song.duration.value)), NoSource)
      else (done, NoSource)
  }

  /** The status `createAsync` resolves with. */
  datatype InitialStatus = InitialStatus(isLoaded: bool, durationMillis: Option<nat>)

  /** How the awaited part of `loadSound` ended: a sound was created, or
      `setAudioModeAsync`/`createAsync` threw. */
  datatype LoadResult = Created(handle: SoundHandle, initial: InitialStatus) | LoadThrew

  /** The displayed duration after a load: the hint when it is positive,
      otherwise what the platform reports, otherwise 0. */
  function ChosenDuration(hint: nat, reported: Option<nat>): (d: nat)
    ensures hint > 0 ==> d == hint
    ensures hint == 0 && reported.Some? ==> d == reported.value
    ensures hint == 0 && reported.None? ==> d == 0
  {
    if hint > 0 then hint else OrZero(reported)
  }

  /** The end of `loadSound` after a load attempt: a created sound is kept and
      marked playing (it was created with `shouldPlay`), and a loaded status
      sets the duration; an exception is swallowed. Loading ends off either way. */
  function FinishLoad(st: PlayerState, hint: nat, result: LoadResult): (r: PlayerState)
    ensures !r.isLoading
    ensures r.currentTime == st.currentTime
    ensures result.LoadThrew? ==> r == st.(isLoading := false)
    ensures result.Created? ==> r.sound == Some(result.handle) && r.isPlaying
    ensures result.Created? && result.initial.isLoaded ==>
      r.duration == Ms(ChosenDuration(hint, result.initial.durationMillis))
    ensures result.Created? && !result.initial.isLoaded ==> r.duration == st.duration
  {
    match result
    case LoadThrew => st.(isLoading := false)
    case Created(h, init) =>
      var playing := st.(sound := Some(h), isPlaying := true);
      var sized := if init.isLoaded then playing.(duration := Ms(ChosenDuration(hint, init.durationMillis))) else playing;
      sized.(isLoading := false)
  }

  /** Whatever the song and whatever the platform does, `loadSound` ends with
      loading off: at once when there is nothing to play, after the attempt
      otherwise. */
  lemma LoadAlwaysSettles(st: PlayerState, song: Song, result: LoadResult)
    ensures var (s1, choice) := StartLoad(st, song);
      match choice
      case NoSource => !s1.isLoading
      case LoadFrom(_, hint) => s1.isLoading && !FinishLoad(s1, hint, result).isLoading
  {
  }

  /** A song with neither a URL nor a key and an `"M:SS"` text: nothing is
      loaded and the duration is `(M * 60 + S) * 1000`. */
  lemma MockSongDuration(song: Song, m: nat, s: nat)
    requires !Truthy(song.audioUrl) && !Truthy(song.audioKey)
    requires s < 60 && song.duration == Some(NatToString(m) + ":" + Pad2(s))
    ensures StartLoad(Mounted, song).1 == NoSource
    ensures StartLoad(Mounted, song).0 == PlayerState(None, false, false, 0, Ms((m * 60 + s) * 1000))
  {
    DurationRoundTrip(m, s);
  }

  // ---------------------------------------------------------------- callbacks

  /** What the platform passes to the status callback. */
  datatype PlaybackStatus = PlaybackStatus(isLoaded: bool, isPlaying: bool, positionMillis: nat, didJustFinish: bool)

  /** `onPlaybackStatusUpdate(status)`. `captured` is the `sound` value the
      callback closed over, which is not necessarily the current one. An
      unloaded status is ignored; otherwise playing flag and position are
      copied; at the end of the track a replay of the captured sound is
      requested, if there is one. */
  function OnPlaybackStatusUpdate(st: PlayerState, captured: Option<SoundHandle>, status: PlaybackStatus)
    : (r: (PlayerState, Option<SoundHandle>))
    ensures !status.isLoaded ==> r.0 == st && r.1 == None
    ensures status.isLoaded ==> r.0.isPlaying == status.isPlaying && r.0.currentTime == status.positionMillis
    ensures r.0.sound == st.sound && r.0.isLoading == st.isLoading && r.0.duration == st.duration
    ensures r.1.Some? <==> status.isLoaded && status.didJustFinish && captured.Some?
    ensures r.1.Some? ==> r.1 == captured
  {
    if !status.isLoaded then (st, None)
    else
      var updated := st.(isPlaying := status.isPlaying, currentTime := status.positionMillis);
      (updated, if status.didJustFinish then captured else None)
  }

  /** The platform call the play/pause button makes. */
  datatype TransportCommand = NoCommand | PauseSound(handle: SoundHandle) | PlaySound(handle: SoundHandle)

  /** `onPlayPausePress()`: nothing without a sound; pause when playing, play
      otherwise. It returns only a command: `isPlaying` changes later, through
      the status callback. */
  function OnPlayPausePress(st: PlayerState): (c: TransportCommand)
    ensures st.sound.None? <==> c == NoCommand
    ensures c.PauseSound? <==> st.sound.Some? && st.isPlaying
    ensures c.PlaySound? <==> st.sound.Some? && !st.isPlaying
    ensures c != NoCommand ==> Some(c.handle) == st.sound
  {
    match st.sound
    case None => NoCommand
    case Some(h) => if st.isPlaying then PauseSound(h) else PlaySound(h)
  }

  // ------------------------------------------------------------------ artwork

  /** What the background and cover images are given. */
  datatype ImageSource = UriImage(uri: string) | AssetImage(asset: ImageManager.ImageAsset) | NoImage

  /** The artwork choice: a string artwork becomes `{ uri }`; otherwise a
      non-empty `artworkKey` is read straight from the image table (no
      placeholder: a missing key gives nothing); otherwise the raw artwork. */
  function ArtworkSource(song: Song): (r: ImageSource)
    ensures song.artwork.ArtworkUrl? ==> r == UriImage(song.artwork.url)
    ensures !song.artwork.ArtworkUrl? && Truthy(song.artworkKey) ==>
      && (r.AssetImage? <==> song.artworkKey.value in ImageManager.AppImages)
      && (r.AssetImage? ==> r.asset == ImageManager.AppImages[song.artworkKey.value])
      && !r.UriImage?
    ensures !song.artwork.ArtworkUrl? && !Truthy(song.artworkKey) ==>
      r == (if song.artwork.ArtworkAsset? then AssetImage(song.artwork.asset) else NoImage)
  {
    match song.artwork
    case ArtworkUrl(u) => UriImage(u)
    case _ =>
      if Truthy(song.artworkKey) then
        var key := song.artworkKey.value;
        if key in ImageManager.AppImages then AssetImage(ImageManager.AppImages[key]) else NoImage
      else
        match song.artwork
        case ArtworkAsset(a) => AssetImage(a)
        case _ => NoImage
  }

  /** The load of a bundled track: it gets no hint, so a loaded status shows
      the platform's reported duration (or 0), whatever the song says. */
  lemma LocalTrackUsesReported(st: PlayerState, song: Song, h: SoundHandle, reported: Option<nat>)
    requires !Truthy(song.audioUrl) && Truthy(song.audioKey)
    ensures var (s1, choice) := StartLoad(st, song);
      && choice.LoadFrom? && choice.hint == 0
      && FinishLoad(s1, choice.hint, Created(h, InitialStatus(true, reported))).duration == Ms(OrZero(reported))
  {
  }

  /** The play/pause button alternates once the platform has reported the
      effect of a press: after a status carrying the opposite playing flag,
      the next press issues the opposite command on the same sound. */
  lemma PressReportPressAlternates(st: PlayerState, status: PlaybackStatus)
    requires st.sound.Some?
    requires status.isLoaded && status.isPlaying == !st.isPlaying
    ensures var c1 := OnPlayPausePress(st);
      var c2 := OnPlayPausePress(OnPlaybackStatusUpdate(st, st.sound, status).0);
      && c1 != NoCommand && c2 != NoCommand && c1.handle == c2.handle
      && (c1.PauseSound? <==> c2.PlaySound?)
  {
  }

  /** The artwork key branch and the shared image lookup agree on the table's
      keys; on a missing key the player shows nothing where the lookup would
      give the placeholder. */
  lemma ArtworkKeyAgreesWithLookup(song: Song)
    requires !song.artwork.ArtworkUrl? && Truthy(song.artworkKey)
    ensures song.artworkKey.value in ImageManager.AppImages ==>
      ArtworkSource(song) == AssetImage(ImageManager.GetAssetImage(song.artworkKey.value))
    ensures song.artworkKey.value !in ImageManager.AppImages ==>
      ArtworkSource(song) == NoImage && ImageManager.GetAssetImage(song.artworkKey.value) == ImageManager.Placeholder
  {
    ImageManager.PlaceholderIffMissing(song.artworkKey.value);
  }

  // ------------------------------------------------------------- as written

  /** How the start of `loadSound` ends as the file is written. */
  datatype StartAsWritten = Continues(choice: SourceChoice) | RejectsBeforeTry

  /** The start of `loadSound` as written: the key branch indexes `AppAudio`,
      a name utils/AudioManager.ts does not export, so it reads a property of
      `undefined`. That `TypeError` is raised before the `try`, the async
      function rejects, and loading is never turned off. */
  function StartLoadAsWritten(st: PlayerState, song: Song): (r: (PlayerState, StartAsWritten))
    ensures !Truthy(song.audioUrl) && Truthy(song.audioKey) ==> r == (st.(isLoading := true), RejectsBeforeTry)
    ensures Truthy(song.audioUrl) || !Truthy(song.audioKey) ==> r.0 == StartLoad(st, song).0 && r.1 == Continues(ChooseSource(song))
  {
    if !Truthy(song.audioUrl) && Truthy(song.audioKey) then (st.(isLoading := true), RejectsBeforeTry)
    else var (s, c) := StartLoad(st, song); (s, Continues(c))
  }

  /** The discrepancy: a song carrying only the key `"flower"` leaves the
      player spinning as written, while the model loads the bundled track and
      settles whatever the platform answers. */
  lemma LocalKeyAsWritten(song: Song, result: LoadResult)
    requires song.audioUrl == None && song.audioKey == Some("flower")
    ensures StartLoadAsWritten(Mounted, song) == (Mounted, RejectsBeforeTry)
    ensures StartLoadAsWritten(Mounted, song).0.isLoading
    ensures StartLoad(Mounted, song) == (Mounted, LoadFrom(LocalAudio(Some(AudioManager.Flower)), 0))
    ensures !FinishLoad(Mounted, 0, result).isLoading
  {
  }

  /** The artwork choice as written: the key branch reads `AppImages[key]`
      straight from the object literal, so a key naming an `Object.prototype`
      member hands that member (a function) to the image; a missing key gives
      `undefined`, which shows nothing. Every other song gets `ArtworkSource`. */
  function ArtworkSourceAsWritten(song: Song): (r: JsValue<ImageSource>)
    ensures r.InheritedMember? <==>
      && !song.artwork.ArtworkUrl? && Truthy(song.artworkKey)
      && song.artworkKey.value !in ImageManager.AppImages
      && song.artworkKey.value in ObjectPrototypeMembers
    ensures !r.InheritedMember? ==> r == Own(ArtworkSource(song))
  {
    if !song.artwork.ArtworkUrl? && Truthy(song.artworkKey) then
      match JsGet(ImageManager.AppImages, song.artworkKey.value)
      case Own(a) => Own(AssetImage(a))
      case InheritedMember(name) => InheritedMember(name)
      case _ => Own(NoImage)
    else Own(ArtworkSource(song))
  }

  /** The discrepancy: a song whose artwork key is `"toString"` gets a function
      as its image source as written, and no image in the model. */
  lemma ArtworkInheritedKey(song: Song)
    requires !song.artwork.ArtworkUrl? && song.artworkKey == Some("toString")
    ensures ArtworkSourceAsWritten(song) == InheritedMember("toString")
    ensures ArtworkSource(song) == NoImage
  {
    assert "toString" in ObjectPrototypeMembers;
    ImageManager.AsWrittenInheritedKey();
    ImageManager.PlaceholderIffMissing("toString");
  }
}

=== FILE: playlist_detail.dfy ===
/** The playlist page of screens/LibraryPlaylistDetailScreen.tsx: the built-in
    song database, the first load of the playlist, the "add songs" sheet that
    offers the songs not yet in the playlist, and adding one of them. */
module PlaylistDetail {
  import opened Base
  import opened Data
  import ImageManager

  const TrackBase: string := "https://www.soundhelix.com/examples/mp3/SoundHelix-Song-"

  /** One database row: no artwork object, a `M:SS` duration, a play count, a
      sample track URL and an image key. */
  function DbSong(id: string, title: string, artist: string, artworkKey: string, track: string, duration: string, plays: string): Song {
    Song(id, title, artist, NoArtwork, Some(duration), None, Some(plays), Some(TrackBase + track + ".mp3"), None, Some(artworkKey))
  }

  /** `MOCK_DATABASE_SONGS`: the twelve songs the page draws from. */
  const MockDatabase: seq<Song> := [
    DbSong("12", "FLOWER", "Jisoo", "image_872681", "12", "3:36", "2.1M"),
    DbSong("1", "Don't Start Now", "Dua Lipa", "song_50", "1", "3:03", "1.2B"),
    DbSong("2", "Watermelon Sugar", "Harry Styles", "song_51", "2", "2:54", "980M"),
    DbSong("3", "Levitating", "Dua Lipa", "song_52", "3", "3:23", "500M"),
    DbSong("4", "Peaches", "Justin Bieber", "song_54", "4", "3:18", "850M"),
    DbSong("6", "Shape of You", "Ed Sheeran", "search_song_102", "6", "3:53", "3.1B"),
    DbSong("7", "Blinding Lights", "The Weeknd", "search_song_103", "7", "3:20", "2.9B"),
    DbSong("8", "Stay", "Kid LAROI & Justin Bieber", "search_song_104", "8", "2:21", "2.5B"),
    DbSong("10", "Good 4 U", "Olivia Rodrigo", "search_song_106", "10", "2:58", "1.6B"),
    DbSong("14", "Bad Habits", "Ed Sheeran", "chart_32", "14", "3:51", "1.1B"),
    DbSong("15", "Butter", "BTS", "album_45", "15", "2:44", "800M"),
    DbSong("20", "Drivers License", "Olivia Rodrigo", "song_40", "4", "4:02", "1.7B")
  ]

  /** The database has twelve songs with distinct ids. */
  lemma MockDatabaseUnique()
    ensures |MockDatabase| == 12
    ensures UniqueIds(MockDatabase)
  {
  }

  /** The image of "FLOWER" is not in the image table, so its row shows the
      placeholder; the other eleven keys all resolve. */
  lemma DatabaseArtwork()
    ensures ImageManager.GetAssetImage(MockDatabase[0].artworkKey.value) == ImageManager.Placeholder
    ensures forall k :: 1 <= k < |MockDatabase| ==> MockDatabase[k].artworkKey.value in ImageManager.AppImages
  {
  }

  // -------------------------------------------------------------- filtering

  lemma IdsCons(s: seq<Song>)
    requires s != []
    ensures Ids(s) == {s[0].id} + Ids(s[1..])
  {
    assert forall k :: 0 < k < |s| ==> s[k] == s[1..][k - 1];
    assert forall k :: 0 <= k < |s| - 1 ==> s[1..][k] == s[k + 1];
  }

  lemma IdsAppend(songs: seq<Song>, song: Song)
    ensures Ids(songs + [song]) == Ids(songs) + {song.id}
  {
    var t := songs + [song];
    assert forall k :: 0 <= k < |songs| ==> t[k] == songs[k];
    assert t[|songs|] == song;
  }

  /** A list has distinct ids exactly when its head's id is not repeated in
      the tail and the tail has distinct ids. */
  lemma UniqueCons(s: seq<Song>)
    requires s != []
    ensures UniqueIds(s) <==> s[0].id !in Ids(s[1..]) && UniqueIds(s[1..])
  {
    assert forall k :: 0 <= k < |s| - 1 ==> s[1..][k] == s[k + 1];
    if s[0].id !in Ids(s[1..]) && UniqueIds(s[1..]) {
      forall i, j | 0 <= i < j < |s| ensures s[i].id != s[j].id {
        assert s[j] == s[1..][j - 1];
        if i > 0 {
          assert s[i] == s[1..][i - 1];
        }
      }
    }
  }

  /** Appending a song whose id is new keeps the ids distinct. */
  lemma UniqueAppend(s: seq<Song>, song: Song)
    requires UniqueIds(s) && song.id !in Ids(s)
    ensures UniqueIds(s + [song])
  {
    var t := s + [song];
    forall i, j | 0 <= i < j < |t| ensures t[i].id != t[j].id {
      assert t[i] == s[i];
      if j < |s| {
        assert t[j] == s[j];
      } else {
        assert s[i].id in Ids(s);
      }
    }
  }

  /** `MOCK_DATABASE_SONGS.filter(s => !currentIds.has(s.id))`. */
  function SongsToAdd(db: seq<Song>, playlist: seq<Song>): (r: seq<Song>)
    ensures Subsequence(r, db)
    ensures forall s :: s in r <==> s in db && s.id !in Ids(playlist)
    ensures forall s :: multiset(r)[s] == if s.id !in Ids(playlist) then multiset(db)[s] else 0
    ensures Ids(r) <= Ids(db)
    decreases |db|
  {
    if db == [] then []
    else
      var rest := SongsToAdd(db[1..], playlist);
      assert forall s :: s in db <==> s == db[0] || s in db[1..];
      assert db == [db[0]] + db[1..];
      assert multiset(db) == multiset{db[0]} + multiset(db[1..]);
      IdsCons(db);
      if db[0].id !in Ids(playlist) then
        var r := [db[0]] + rest;
        assert r[1..] == rest;
        IdsCons(r);
        r
      else rest
  }

  /** Filtering a list with distinct ids keeps them distinct. */
  lemma {:induction false} SongsToAddUnique(db: seq<Song>, playlist: seq<Song>)
    requires UniqueIds(db)
    ensures UniqueIds(SongsToAdd(db, playlist))
    decreases |db|
  {
    if db != [] {
      UniqueCons(db);
      SongsToAddUnique(db[1..], playlist);
      var rest := SongsToAdd(db[1..], playlist);
      if db[0].id !in Ids(playlist) {
        var r := [db[0]] + rest;
        assert r[1..] == rest;
        UniqueCons(r);
      }
    }
  }

  /** `prev.filter(s => s.id !== id)`. */
  function RemoveId(songs: seq<Song>, id: string): (r: seq<Song>)
    ensures Subsequence(r, songs)
    ensures forall s :: s in r <==> s in songs && s.id != id
    ensures Ids(r) == Ids(songs) - {id}
    decreases |songs|
  {
    if songs == [] then []
    else
      var rest := RemoveId(songs[1..], id);
      assert forall s :: s in songs <==> s == songs[0] || s in songs[1..];
      IdsCons(songs);
      if songs[0].id != id then
        var r := [songs[0]] + rest;
        assert r[1..] == rest;
        IdsCons(r);
        r
      else rest
  }

  /** Removing an id keeps every other entry as often as it occurred and
      drops every entry with that id. */
  lemma {:induction false} RemoveIdCounts(songs: seq<Song>, id: string)
    ensures forall s :: multiset(RemoveId(songs, id))[s] == if s.id != id then multiset(songs)[s] else 0
    decreases |songs|
  {
    if songs != [] {
      RemoveIdCounts(songs[1..], id);
      assert songs == [songs[0]] + songs[1..];
      assert multiset(songs) == multiset{songs[0]} + multiset(songs[1..]);
      if songs[0].id != id {
        assert RemoveId(songs, id) == [songs[0]] + RemoveId(songs[1..], id);
      }
    }
  }

  /** Removing an id that is not there changes nothing. */
  lemma {:induction false} RemoveIdAbsent(songs: seq<Song>, id: string)
    requires id !in Ids(songs)
    ensures RemoveId(songs, id) == songs
    decreases |songs|
  {
    if songs != [] {
      IdsCons(songs);
      RemoveIdAbsent(songs[1..], id);
      assert [songs[0]] + songs[1..] == songs;
    }
  }

  /** On a list with distinct ids, removing a present id drops exactly one
      entry and keeps the ids distinct. */
  lemma {:induction false} RemoveIdUnique(songs: seq<Song>, id: string)
    requires UniqueIds(songs)
    ensures UniqueIds(RemoveId(songs, id))
    ensures id in Ids(songs) ==> |RemoveId(songs, id)| == |songs| - 1
    decreases |songs|
  {
    if songs != [] {
      UniqueCons(songs);
      IdsCons(songs);
      RemoveIdUnique(songs[1..], id);
      var rest := RemoveId(songs[1..], id);
      if songs[0].id != id {
        var r := [songs[0]] + rest;
        assert r[1..] == rest;
        UniqueCons(r);
      } else {
        RemoveIdAbsent(songs[1..], id);
      }
    }
  }

  // ----------------------------------------------------------------- screen

  datatype DetailScreen = DetailScreen(
    songs: seq<Song>,
    loading: bool,
    modalVisible: bool,
    addable: seq<Song>,
    addingSongId: Option<string>
  )

  const Opened: DetailScreen := DetailScreen([], true, false, [], None)

  /** `fetchPlaylistSongs` after its delay: the first three database songs. */
  function FinishFetchPlaylist(st: DetailScreen): (r: DetailScreen)
    ensures !r.loading && |r.songs| == 3 && r.songs <= MockDatabase
    ensures UniqueIds(r.songs)
    ensures r.modalVisible == st.modalVisible && r.addable == st.addable && r.addingSongId == st.addingSongId
  {
    MockDatabaseUnique();
    st.(songs := MockDatabase[..3], loading := false)
  }

  /** `handleOpenAddModal`: the sheet opens and, once `fetchSongsToAdd` has
      settled, offers the database songs the playlist lacks. */
  function OpenAddModal(st: DetailScreen): (r: DetailScreen)
    ensures r.modalVisible && r.songs == st.songs && r.addingSongId == st.addingSongId
    ensures forall s :: s in r.addable <==> s in MockDatabase && s.id !in Ids(st.songs)
    ensures Subsequence(r.addable, MockDatabase)
  {
    st.(modalVisible := true, addable := SongsToAdd(MockDatabase, st.songs))
  }

  /** The moment a row is tapped: that row is disabled. */
  function StartAdd(st: DetailScreen, song: Song): (r: DetailScreen)
    ensures RowDisabled(r, song)
    ensures forall other: Song :: other.id != song.id ==> !RowDisabled(r, other)
    ensures r.songs == st.songs && r.addable == st.addable && r.modalVisible == st.modalVisible
  {
    st.(addingSongId := Some(song.id))
  }

  /** `disabled={addingSongId === item.id}`. */
  predicate RowDisabled(st: DetailScreen, song: Song) {
    st.addingSongId == Some(song.id)
  }

  /** `handleAddSong` after its delay: the song is appended to the playlist,
      dropped from the offer, the row is released and the sheet closes. */
  function FinishAdd(st: DetailScreen, song: Song): (r: DetailScreen)
    ensures r.songs == st.songs + [song]
    ensures forall s :: s in r.addable <==> s in st.addable && s.id != song.id
    ensures Subsequence(r.addable, st.addable)
    ensures r.addingSongId.None? && !r.modalVisible && r.loading == st.loading
  {
    st.(songs := st.songs + [song], addable := RemoveId(st.addable, song.id), addingSongId := None, modalVisible := false)
  }

  /** The offer is exactly the database songs missing from the playlist, and
      the playlist has no repeated id. */
  ghost predicate Partitioned(st: DetailScreen) {
    && UniqueIds(st.songs)
    && UniqueIds(st.addable)
    && forall s :: s in st.addable <==> s in MockDatabase && s.id !in Ids(st.songs)
  }

  /** Opening the sheet on a playlist without repeats establishes the
      partition. */
  lemma OpenEstablishes(st: DetailScreen)
    requires UniqueIds(st.songs)
    ensures Partitioned(OpenAddModal(st))
  {
    MockDatabaseUnique();
    SongsToAddUnique(MockDatabase, st.songs);
  }

  /** Adding an offered song keeps the partition: the playlist grows by one,
      the offer shrinks by one, and the song moves from one to the other. */
  lemma AddKeepsPartition(st: DetailScreen, song: Song)
    requires Partitioned(st)
    requires song in st.addable
    ensures var r := FinishAdd(StartAdd(st, song), song);
      && Partitioned(r)
      && |r.songs| == |st.songs| + 1 && |r.addable| == |st.addable| - 1
      && song in r.songs && song !in r.addable
  {
    var r := FinishAdd(StartAdd(st, song), song);
    IdsAppend(st.songs, song);
    assert song.id in Ids(st.addable) by {
      var k :| 0 <= k < |st.addable| && st.addable[k] == song;
    }
    UniqueAppend(st.songs, song);
    RemoveIdUnique(st.addable, song.id);
    assert r.songs[|st.songs|] == song;
  }

  /** Taps that overlap the 500 ms wait: only the row of the latest tap is
      disabled, so after tapping A and then B, A can be tapped again. Its
      handler then runs twice and A is appended twice, which breaks the
      distinct ids of `Partitioned`. */
  lemma RepeatedTapAddsTwice(st: DetailScreen, a: Song, b: Song)
    requires a.id != b.id
    ensures !RowDisabled(StartAdd(StartAdd(st, a), b), a)
    ensures var tapped := StartAdd(StartAdd(StartAdd(st, a), b), a);
      var r := FinishAdd(FinishAdd(FinishAdd(tapped, a), b), a);
      && r.songs == st.songs + [a, b, a]
      && !UniqueIds(r.songs)
  {
    var tapped := StartAdd(StartAdd(StartAdd(st, a), b), a);
    var r := FinishAdd(FinishAdd(FinishAdd(tapped, a), b), a);
    assert r.songs == st.songs + [a, b, a];
    assert r.songs[|st.songs|] == a && r.songs[|st.songs| + 2] == a;
  }

  /** With distinct ids, every song after the first `n` is offered once the
      first `n` are in the playlist. */
  lemma OfferAfterPrefix(db: seq<Song>, n: nat)
    requires UniqueIds(db) && n <= |db|
    ensures forall k :: n <= k < |db| ==> db[k] in SongsToAdd(db, db[..n])
  {
    assert forall i :: 0 <= i < n ==> db[..n][i] == db[i];
  }

  /** The page as first shown and then opened: three songs in the playlist and
      the other nine on offer. */
  lemma FirstOffer()
    ensures var r := OpenAddModal(FinishFetchPlaylist(Opened));
      && Partitioned(r)
      && forall k :: 3 <= k < |MockDatabase| ==> MockDatabase[k] in r.addable
  {
    var p := FinishFetchPlaylist(Opened);
    OpenEstablishes(p);
    MockDatabaseUnique();
    OfferAfterPrefix(MockDatabase, 3);
  }
}

=== FILE: register.dfy ===
/** The sign-up check of screens/RegisterScreen.tsx (`handleRegister`). */
module Register {

  datatype RegisterForm = RegisterForm(fullName: string, email: string, password: string, confirmPassword: string)

  /** The three alerts: a password mismatch, a missing field, or success (which
      then offers the way back to the login screen). */
  datatype RegisterOutcome = PasswordMismatch | Incomplete | Registered

  /** `handleRegister()`: the password/confirmation comparison comes first;
      then the three fields are checked for being non-empty. There is no email
      format, trimming or strength check, so whitespace counts as content. */
  function HandleRegister(f: RegisterForm): (o: RegisterOutcome)
    ensures f.password != f.confirmPassword ==> o == PasswordMismatch
    ensures o == Registered <==>
      f.password == f.confirmPassword && f.fullName != "" && f.email != "" && f.password != ""
    ensures o == Incomplete <==>
      f.password == f.confirmPassword && (f.fullName == "" || f.email == "" || f.password == "")
  {
    if f.password != f.confirmPassword then PasswordMismatch
    else if f.email != "" && f.password != "" && f.fullName != "" then Registered
    else Incomplete
  }

  /** The mismatch wins whatever the other fields hold: changing the name or
      email never changes a mismatch verdict. */
  lemma MismatchFirst(f: RegisterForm, name: string, email: string)
    requires f.password != f.confirmPassword
    ensures HandleRegister(f) == HandleRegister(f.(fullName := name, email := email)) == PasswordMismatch
  {
  }

  /** Whitespace-only fields are accepted. */
  lemma WhitespaceCounts()
    ensures HandleRegister(RegisterForm(" ", " ", " ", " ")) == Registered
  {
  }
}

=== FILE: search.dfy ===
/** The track search of screens/SearchScreen.tsx: the duration label, the
    request URL, the two phases of `handleSearch`, the mapping of a raw API
    track into a `Song`, and `handleClearSearch`. */
module Search {
  import opened Base
  import opened Data
  import Player

  /** `formatTime(millis)` of the search list: `"0:00"` for zero, otherwise the
      player's `M:SS` computation. */
  function FormatTime(ms: nat): (r: string)
    ensures ms == 0 ==> r == "0:00"
  {
    if ms == 0 then "0:00"
    else NatToString(ms / 60000) + ":" + Pad2((ms / 1000) % 60)
  }

  /** The search list and the player label every duration the same way. */
  lemma FormatTimesAgree(ms: nat)
    ensures FormatTime(ms) == Player.FormatTime(ms)
  {
    if ms == 0 {
      assert Player.FormatTime(0) == NatToString(0) + ":" + Pad2(0);
    }
  }

  // ---------------------------------------------------------------- request

  const SearchParam: string := "&format=json&search="
  const SearchSuffix: string := "&limit=20&imagesize=200"

  /** The URL fetched for a query: the query is inserted as typed, without
      encoding, and at most 20 tracks are asked for. */
  function SearchUrl(apiUrl: string, clientId: string, query: string): string {
    apiUrl + "/tracks/?client_id=" + clientId + SearchParam + query + SearchSuffix
  }

  /** The query part of a search URL built for `apiUrl` and `clientId`. */
  function QueryOf(url: string, apiUrl: string, clientId: string): (q: Option<string>)
    ensures q.Some? ==> SearchUrl(apiUrl, clientId, q.value) == url
  {
    var head := apiUrl + "/tracks/?client_id=" + clientId + SearchParam;
    if |url| >= |head| + |SearchSuffix| && url[..|head|] == head && url[|url| - |SearchSuffix|..] == SearchSuffix then
      var q := url[|head|..|url| - |SearchSuffix|];
      assert url == url[..|head|] + q + url[|url| - |SearchSuffix|..];
      Some(q)
    else None
  }

  /** The query can be read back, unchanged, from the URL it produced. */
  lemma QueryVerbatim(apiUrl: string, clientId: string, query: string)
    ensures QueryOf(SearchUrl(apiUrl, clientId, query), apiUrl, clientId) == Some(query)
  {
    var head := apiUrl + "/tracks/?client_id=" + clientId + SearchParam;
    var url := SearchUrl(apiUrl, clientId, query);
    assert url == head + query + SearchSuffix;
    assert url[..|head|] == head;
    assert url[|url| - |SearchSuffix|..] == SearchSuffix;
    assert url[|head|..|url| - |SearchSuffix|] == query;
  }

  // ---------------------------------------------------------------- mapping

  /** A track as the search API returns it (`duration` in seconds). */
  datatype RawTrack = RawTrack(
    id: string,
    name: string,
    artistName: string,
    image: Option<string>,
    duration: nat,
    audio: string,
    sharecount: Option<nat>
  )

  const PlaceholderArtworkUrl: string := "https://placehold.co/60x60/EEE/333?text=Music"

  /** One `Song` of the result list. */
  function MapTrack(t: RawTrack): (s: Song)
    ensures s.id == t.id && s.title == t.name && s.artist == t.artistName
    ensures s.audioUrl == Some(t.audio) && s.durationMillis == Some(t.duration * 1000)
    ensures s.artwork.ArtworkUrl?
    ensures Truthy(t.image) ==> s.artwork.url == t.image.value
    ensures !Truthy(t.image) ==> s.artwork.url == PlaceholderArtworkUrl
    ensures t.sharecount.None? ==> s.plays == Some("0")
    ensures t.sharecount.Some? ==> s.plays == Some(NatToString(t.sharecount.value))
    ensures t.sharecount.Some? ==> JsNumber(s.plays.value) == t.sharecount
    ensures s.duration == None && s.audioKey == None && s.artworkKey == None
  {
    var count := if t.sharecount.Some? then t.sharecount.value else 0;
    JsNumberOfNatToString(count);
    var plays := if t.sharecount.Some? then NatToString(count) else "0";
    Song(t.id, t.name, t.artistName,
         ArtworkUrl(if Truthy(t.image) then t.image.value else PlaceholderArtworkUrl),
         None, Some(t.duration * 1000), Some(plays), Some(t.audio), None, None)
  }

  function MapTracks(ts: seq<RawTrack>): (songs: seq<Song>)
    ensures |songs| == |ts|
    ensures forall i :: 0 <= i < |ts| ==> songs[i] == MapTrack(ts[i])
  {
    seq(|ts|, i requires 0 <= i < |ts| => MapTrack(ts[i]))
  }

  /** A mapped result handed to the player streams the track's audio with
      the track's length as its duration hint, and shows its image by URL. */
  lemma MappedTrackInPlayer(t: RawTrack)
    requires t.audio != ""
    ensures Player.ChooseSource(MapTrack(t)) == Player.LoadFrom(Player.RemoteUri(t.audio), t.duration * 1000)
    ensures Player.ArtworkSource(MapTrack(t)).UriImage?
  {
  }

  /** A track with a positive length keeps that length in the player,
      whatever duration the platform reports once the stream has loaded. */
  lemma SearchDurationWins(t: RawTrack, st: Player.PlayerState, h: Player.SoundHandle, reported: Option<nat>)
    requires t.audio != "" && t.duration > 0
    ensures var (s1, choice) := Player.StartLoad(st, MapTrack(t));
      && choice.LoadFrom?
      && Player.FinishLoad(s1, choice.hint, Player.Created(h, Player.InitialStatus(true, reported))).duration == Player.Ms(t.duration * 1000)
  {
  }

  // ------------------------------------------------------------------ state

  datatype SearchState = SearchState(query: string, showResults: bool, loading: bool, results: seq<Song>)

  const InitialSearch: SearchState := SearchState("", false, false, [])

  /** The synchronous part of `handleSearch`. An empty query clears the
      results, hides the panel and sends nothing (a query of spaces is not
      empty). Otherwise the old results are dropped, the panel and the spinner
      are shown, and the URL for the query is fetched. */
  function StartSearch(st: SearchState, apiUrl: string, clientId: string): (r: (SearchState, Option<string>))
    ensures r.0.results == [] && r.0.query == st.query
    ensures r.1.None? <==> st.query == ""
    ensures st.query == "" ==> !r.0.showResults && r.0.loading == st.loading
    ensures st.query != "" ==> r.0.showResults && r.0.loading && r.1.value == SearchUrl(apiUrl, clientId, st.query)
  {
    if |st.query| == 0 then (st.(results := [], showResults := false), None)
    else (st.(loading := true, showResults := true, results := []), Some(SearchUrl(apiUrl, clientId, st.query)))
  }

  /** The awaited part of `handleSearch`: a response replaces the results with
      its mapped tracks; a failure leaves them as they were; the spinner stops
      either way. */
  function FinishSearch(st: SearchState, response: Option<seq<RawTrack>>): (r: SearchState)
    ensures !r.loading
    ensures r.query == st.query && r.showResults == st.showResults
    ensures response.Some? ==> r.results == MapTracks(response.value)
    ensures response.None? ==> r.results == st.results
  {
    match response
    case Some(ts) => st.(results := MapTracks(ts), loading := false)
    case None => st.(loading := false)
  }

  /** A search for a non-empty query ends with the panel shown, the spinner
      stopped, and either the mapped tracks or no results. */
  lemma SearchSettles(st: SearchState, apiUrl: string, clientId: string, response: Option<seq<RawTrack>>)
    requires st.query != ""
    ensures var r := FinishSearch(StartSearch(st, apiUrl, clientId).0, response);
      && r.showResults && !r.loading
      && r.results == (if response.Some? then MapTracks(response.value) else [])
  {
  }

  /** `handleClearSearch()`. */
  function ClearSearch(st: SearchState): (r: SearchState)
    ensures r.query == "" && !r.showResults && r.results == []
    ensures r.loading == st.loading
  {
    st.(query := "", showResults := false, results := [])
  }

  /** After clearing, searching again sends nothing and leaves the panel hidden. */
  lemma ClearThenSearch(st: SearchState, apiUrl: string, clientId: string)
    ensures StartSearch(ClearSearch(st), apiUrl, clientId) == (ClearSearch(st), None)
  {
  }
}
